=== FILE: README.md ===
# movie-tracker: the watchlist and account core, in Dafny

This project models the server side of movie-tracker, an Express/MongoDB
application where a user signs up, logs in with a token, searches an external
movie catalogue (TMDb), and keeps a per-user watchlist. Each route handler
becomes a pure function. It takes the request fields, the relevant collection
and the external services as parameters, and returns a status with a body
(`Http.Reply`) together with the new collection.

- `Common`, `Text`, `Js`: the JavaScript semantics the handlers rely on. This
  covers `split`, `join`, `trim`, `toLowerCase`, `startsWith`, `replace`,
  `parseInt`, `String(v)`, truthiness, and the decimal form of a number.
  `JsValue` stands for a request-body field, which may be `undefined`, `null`,
  a boolean, an integer or a string.
- `Tmdb`, `Catalog`: the catalogue payloads, with every upstream field
  optional. Also the search transform and the detail normalisation of
  `GET /movies/search` and `GET /movies/details/:movieId`.
- `MovieSchema`, `Watchlist`: the saved-movie collection with its unique index
  on `(userId, movieId)`, and the handlers `GET /movies`, `POST /movies` and
  `DELETE /movies/:id`.
- `Auth`: the `authenticateToken` middleware, as a gate in front of a handler.
- `UserSchema`, `Accounts`: the user collection with its unique email, and
  `POST /users/signup`, `POST /users/login` and `GET /users/auth`.
- `ProtoMovies`, `ProtoUsers`: the superseded in-memory prototype of the movie
  routes and the plaintext prototype of the account routes.

External services are parameters:

- The catalogue is a function from the requested id or query to an optional
  payload. `None` means the fetch or the JSON decoding failed, which the
  handlers' `catch` turns into a 500.
- bcrypt is a pair of functions, `hash` and `compare`.
- jsonwebtoken is a pair of functions, `sign` and `verify`.
- The clock (`Date.now`) and bcrypt's random salt are parameters.

The end-to-end lemmas assume little of bcrypt and jsonwebtoken, and only for
the password and the token at hand. Of bcrypt, they assume the hash is
non-empty and matches its own password. Of jsonwebtoken, they assume the signed
token is non-empty, contains no space, and verifies back to the user id it was
signed for.

The store's `_id` is a natural number, and a path parameter is read as one in
canonical decimal. A parameter that does not read as one is MongoDB's cast
error, which the handler reports as a 500.

Three behaviours of the code worth stating up front:

- Signup looks up the normalised email but stores the email as sent. See
  Findings.
- A search whose `results` list is empty is a 404. A payload without
  `results` is a 500, because `.map` throws on it.
- The prototype deletes through `DELETE /` with the id in the JSON body, not
  through a path parameter.

## Model

| member | source | states |
|---|---|---|
| Text.Join | backend/Routes/movieRoutes.js:234-237 | `join` gives nothing for no parts, the part itself for one, and otherwise starts with the first part and the separator; JoinAppend fixes the rest |
| Text.JoinAppend | backend/Routes/movieRoutes.js:234-237 | joining two non-empty lists is each joined with the separator between them, which with one part fixes every join |
| Text.Split | backend/middleware/auth.js:28 | `split(c)` always yields at least one piece |
| Text.SplitCount | backend/middleware/auth.js:28 | `split(c)` yields one more piece than the text has occurrences of `c` |
| Text.SplitJoin | backend/middleware/auth.js:28 | joining the pieces of `split(c)` with `c` gives back the original text |
| Text.SplitPiecesFree | backend/middleware/auth.js:28 | no piece of `split(c)` contains `c` |
| Text.SplitHead | backend/Routes/movieRoutes.js:230 | the first piece of `split('-')` is a prefix free of `-`, ending where the first `-` is or at the end of the text |
| Text.SplitWord | backend/middleware/auth.js:28 | text without the separator splits into itself alone |
| Text.SplitAfterWord | backend/middleware/auth.js:28 | a separator-free word followed by the separator splits into that word followed by the pieces of the rest |
| Common.Map | backend/Routes/movieRoutes.js:73 | `map` keeps the length and applies the function at every position |
| Common.Filter | Routes/movieRoutes.js:68 | `filter` keeps only elements satisfying the predicate, and every element that does |
| Common.FilterCounts | backend/Routes/movieRoutes.js:22 | filtering keeps every occurrence of an element that satisfies the predicate and none of any other |
| Common.FindIndex | Routes/movieRoutes.js:78 | `findIndex` gives the first position satisfying the predicate, or none when no position does |
| Common.Find | Routes/movieRoutes.js:33 | `find` gives the element at the first position satisfying the predicate, or none when no element does |
| Common.Take | backend/Routes/movieRoutes.js:237 | `slice(0, n)` is a prefix of length `n`, or the whole list when it is shorter |
| Common.FilterAppend | backend/Routes/movieRoutes.js:236 | `filter` distributes over concatenation, so it keeps the order of the elements it keeps |
| Common.FilterOne | backend/Routes/movieRoutes.js:236 | `filter` keeps a single element exactly when it satisfies the predicate |
| Text.JoinEmptyIff | backend/Routes/movieRoutes.js:234-237 | with a non-empty separator, a join is empty exactly when there is nothing or a single empty name to join, which is when the `'N/A'` fallback takes over |
| Text.IndexOf | backend/Routes/movieRoutes.js:198 | the position found is the first occurrence of the pattern, and no position means it never occurs |
| Text.ReplaceFirst | backend/Routes/movieRoutes.js:198 | `replace` with a string pattern substitutes its first occurrence and keeps the text around it; with no occurrence the text is unchanged |
| Text.ReplacePrefix | backend/Routes/movieRoutes.js:197-199 | replacing the first occurrence of a prefix the text starts with by nothing drops exactly that prefix |
| Text.TrimStart | backend/Routes/userRoutes.js:19 | the result is a suffix, only white space was dropped, and it starts with no white space |
| Text.TrimEnd | backend/Routes/userRoutes.js:19 | the result is a prefix, only white space was dropped, and it ends with no white space |
| Text.Trim | backend/Routes/userRoutes.js:19 | `trim` neither starts nor ends with white space and is no longer than the text |
| Text.TrimSlice | backend/Routes/userRoutes.js:19 | `trim` keeps one stretch of the text and drops only white space around it |
| Text.TrimStartSkips | Routes/movieRoutes.js:32 | leading white space in front of text that starts with none is exactly what is skipped |
| Text.NormalizeEmail | backend/Routes/userRoutes.js:19 | the normalised email is the trimmed text with each character lower-cased, so it holds no capital letter |
| Text.TrimUntouched | backend/Routes/userRoutes.js:19 | text with no white space at either edge is unchanged by `trim` |
| Text.ToLower | backend/Routes/userRoutes.js:19 | lower-casing keeps the length and folds each character on its own |
| Text.NormalizeEmailIdempotent | backend/Routes/userRoutes.js:19 | trimming and lower-casing an already normalised email changes nothing |
| Text.CapitalNotNormalized | backend/Routes/userRoutes.js:19 | an address starting with a capital letter and ending in no white space is changed by normalisation |
| Text.NatToString | backend/Routes/movieRoutes.js:213 | the decimal form of a number is canonical (digits only, no leading zero unless it is `0`) |
| Text.IntToString | backend/Routes/movieRoutes.js:213 | the decimal form of an integer starts with `-` exactly when it is negative, and is otherwise canonical digits |
| Text.NatToStringValue | backend/Routes/movieRoutes.js:213 | the digits of the decimal form denote the number |
| Text.ParseNatRoundTrip | backend/Routes/movieRoutes.js:293-298 | an `_id` written in decimal reads back as the same `_id` |
| Text.ParseNatCanonical | backend/Routes/movieRoutes.js:293-298 | every text that reads as an `_id` is that `_id`'s decimal form, so no second spelling reaches the same record |
| Text.NatToStringInjective | backend/Routes/movieRoutes.js:213 | two different numbers never share a decimal form |
| Js.ToJsString | backend/Routes/movieRoutes.js:197 | `String(v)` leaves a string alone and gives a non-empty text for every truthy value |
| Js.ParseInt | Routes/movieRoutes.js:32 | `parseInt` yields a number only when, after leading white space, the text starts with a digit or with a sign followed by a digit, and a negative number only after a `-` |
| Js.ParseIntDigits | Routes/movieRoutes.js:32 | `parseInt` of white space, an optional sign, decimal digits (leading zeros allowed) and a tail that does not start with a digit is the digits' value, negated after `-`; the `0x` case is left to ParseIntHex |
| Js.ParseIntHex | Routes/movieRoutes.js:32 | after white space and an optional sign, `0x` or `0X` and hexadecimal digits read in base 16, negated after `-` |
| Js.ParseIntHexEmpty | Routes/movieRoutes.js:32 | `0x` with no hexadecimal digit after it is `NaN` |
| Js.HexDigits | Routes/movieRoutes.js:32 | the unsigned part after `0x` is the run of hexadecimal digits in base 16, and nothing without a digit |
| Js.UnsignedDigits | Routes/movieRoutes.js:32 | a run of decimal digits followed by a non-digit reads as the run's value |
| Js.Truthy | backend/Routes/userRoutes.js:42 | `undefined`, `null`, `false`, `0` and `""` are falsy and every other value is truthy |
| Js.TruthyByText | backend/Routes/userRoutes.js:42 | a string is falsy exactly when empty, any other value exactly when `String(v)` is `0`, `false`, `null` or `undefined` |
| Js.ParseIntRoundTrip | Routes/movieRoutes.js:32 | `parseInt` reads back every integer written in decimal |
| Js.ParseIntIgnoresTail | Routes/movieRoutes.js:32 | `parseInt` stops at the first character after the digits, so `parseInt("12abc")` is 12 |
| Tmdb.ImageUrl | backend/Routes/movieRoutes.js:77-79 | an image URL exists exactly when the path is truthy, and is the base followed by the path |
| Tmdb.Director | backend/Routes/movieRoutes.js:144 | the director is the name of the first crew entry whose job is `Director`, or absent when there is none or its name is falsy |
| Tmdb.EnglishLogo | backend/Routes/movieRoutes.js:133-135 | the logo is the absolute URL of the file path of the first logo tagged `en` when that path is truthy, and absent when it is not or when no logo is tagged `en` |
| Catalog.Summarize | backend/Routes/movieRoutes.js:73-83 | a summary passes id, title, date, overview and votes through and makes the poster path absolute or null |
| Catalog.Search | backend/Routes/movieRoutes.js:49-91 | a falsy query is a 400; an empty result list is a 404; a missing result list or a failed fetch is a 500; otherwise, exactly when there are hits, a 200 with one summary per hit, in order |
| Catalog.SearchRejectsBeforeUpstream | backend/Routes/movieRoutes.js:54-63 | a refused query gives the same 400 whatever the catalogue would have answered |
| Catalog.MissMessage | backend/Routes/movieRoutes.js:123 | the 404 message is the catalogue's `status_message` when it is truthy, and the fallback otherwise |
| Catalog.Details | backend/Routes/movieRoutes.js:109-162 | a payload with `status_code` or without `id` is a 404 carrying `status_message` or `Movie not found`; a failed fetch is a 500; otherwise the detail view copies title, release date, overview, genres, runtime, language, votes, countries, companies and revenue unchanged, and has the first director, the English logo, at most 9 cast entries as a prefix of the cast list, the crew, and absolute poster and backdrop URLs |
| MovieSchema.Empty | backend/models/Movie.js:76 | the empty collection satisfies the unique index and the id invariant |
| MovieSchema.Build | backend/models/Movie.js:16-66 | a document validates exactly when title, movieId and userId are set; `watchedDate` defaults to now and `fullTmdbData` to `{}` |
| MovieSchema.FindByUser | backend/Routes/movieRoutes.js:22 | `find({userId})` returns each of the user's records as often as it is stored, and nothing else |
| MovieSchema.FindOne | backend/Routes/movieRoutes.js:214 | `findOne({userId, movieId})` finds a record of that pair exactly when one exists |
| MovieSchema.Create | backend/models/Movie.js:16-76 | creation fails validation exactly when a required field is missing, and fails on the unique index exactly when the pair is already stored; it succeeds exactly when neither happens, appending a record with a fresh `_id` and keeping the invariant |
| MovieSchema.RemovePreservesInvariant | backend/models/Movie.js:76 | dropping a record keeps the unique index and the id invariant |
| MovieSchema.FindOneAndDelete | backend/Routes/movieRoutes.js:293-298 | a record is removed exactly when one matches both `_id` and `userId`; otherwise nothing changes |
| MovieSchema.AtMostOnePerPair | backend/models/Movie.js:76 | under the invariant, two records of the same `(userId, movieId)` pair are the same record |
| Watchlist.List | backend/Routes/movieRoutes.js:18-29 | `GET /movies` is a 200 with each of the caller's records as often as it is stored, and nothing else |
| Watchlist.OrNA | backend/Routes/movieRoutes.js:230-251 | the `'N/A'` fallback of a saved field is never empty, keeps any non-empty text and turns empty text into `N/A` |
| Watchlist.ActorNames | backend/Routes/movieRoutes.js:237 | the names of the first five cast entries, in order: five names, or as many as there are cast entries when there are fewer |
| Watchlist.WritersInCrewOrder | backend/Routes/movieRoutes.js:236 | the writer names follow the crew list in order, repeats included: none from an empty crew, a single credit's name exactly when its job is `Writer` or `Screenplay`, and the names of two stretches of crew one after the other |
| Watchlist.Flatten | backend/Routes/movieRoutes.js:226-256 | every saved field: `rated`, `awards` and `metascore` are `N/A`, `type` is `movie` and `ratings` is empty; year, runtime, director, writers, actors, genres, countries, companies, vote average, vote count and box office are the values their own members characterise; date, overview, language and poster are taken over when truthy and are `N/A` otherwise; every field with an `N/A` fallback is non-empty |
| Watchlist.Year | backend/Routes/movieRoutes.js:230 | the year is the release date's text before its first `-`, or `N/A` without a release date |
| Watchlist.Runtime | backend/Routes/movieRoutes.js:233 | the runtime is `<n> min` for a truthy runtime, and `N/A` exactly when the runtime is falsy |
| Watchlist.FieldOrNA | backend/Routes/movieRoutes.js:232-239 | `x || 'N/A'` for an optional text is never empty, keeps truthy text and is `N/A` otherwise |
| Watchlist.NumberOrNA | backend/Routes/movieRoutes.js:247 | the vote average is the number's text when it is truthy, and `N/A` otherwise |
| Watchlist.CountOrNA | backend/Routes/movieRoutes.js:248 | the vote count is the count in decimal when it is non-zero, and `N/A` otherwise |
| Watchlist.BoxOffice | backend/Routes/movieRoutes.js:250 | the box office is `$` followed by the revenue's text when it is truthy, and `N/A` otherwise; never empty |
| Watchlist.YearIsLeadingComponent | backend/Routes/movieRoutes.js:230 | the saved year is the text before the first `-` of a present release date, and `N/A` otherwise |
| Watchlist.MinutesNotNA | backend/Routes/movieRoutes.js:233 | a runtime in minutes is never the text `N/A` |
| Watchlist.RuntimeField | backend/Routes/movieRoutes.js:233 | the saved runtime is `<n> min` for a truthy runtime, and it is `N/A` exactly when the runtime is falsy, 0 included |
| Watchlist.WriterField | backend/Routes/movieRoutes.js:236 | the writers are exactly the crew names with job `Writer` or `Screenplay`, joined with `, `, or `N/A` when there are none |
| Watchlist.ActorsField | backend/Routes/movieRoutes.js:237 | the actors are `N/A` without a cast, the one name (or `N/A` when it is empty) for a cast of one, and otherwise the names of the first five cast entries joined with `, ` |
| Watchlist.LookupKey | backend/Routes/movieRoutes.js:196-199 | a `tmdb-` prefix is dropped from the requested id before the lookup, and anything else is looked up as given |
| Watchlist.Add | backend/Routes/movieRoutes.js:185-268 | a falsy `movieId` is a 400; a failed fetch is a 500; a catalogue miss is a 404 carrying `status_message` or `Movie not found in TMDb`; a pair already saved is a 409; a record failing validation (no title, or no user id) is a 500; otherwise, and only then, a 201 appends the flattened record under `data.id` in decimal; only a 201 changes the collection, and the unique index is kept |
| Watchlist.Save | backend/Routes/movieRoutes.js:226-267 | for a pair not yet saved, `Movie.create` is a 201 appending the flattened record exactly when the title and user id are set, and a 500 that changes nothing otherwise; the unique index is kept |
| Watchlist.AddIgnoresTmdbPrefix | backend/Routes/movieRoutes.js:196-199 | adding `tmdb-603` and adding `603` give the same reply and the same collection |
| Watchlist.AddNumberOrText | backend/Routes/movieRoutes.js:197-202 | adding a non-zero number and adding its decimal text are the same request |
| Watchlist.AddTwice | backend/Routes/movieRoutes.js:211-218 | after a successful add, adding the same movie again is a 409 that changes nothing |
| Watchlist.OthersCopiesDoNotConflict | backend/Routes/movieRoutes.js:213-218 | other users' copies of a catalogue movie never stop a user from adding it |
| Watchlist.Delete | backend/Routes/movieRoutes.js:285-312 | an unreadable id is a 500; the caller's record with that `_id` is removed with a 200; anything else is a 404 that changes nothing |
| Watchlist.DeleteKeepsOthersRecords | backend/Routes/movieRoutes.js:293-302 | a delete never removes a record owned by another user |
| Watchlist.RemoveKeepsOthers | backend/Routes/movieRoutes.js:293-298 | removing one of a user's records keeps every other user's records |
| Auth.SecondWord | backend/middleware/auth.js:28 | `split(' ')[1]` exists exactly when the header contains a space |
| Auth.Authenticate | backend/middleware/auth.js:17-53 | a missing or empty header is a 401 `Unauthorized`; a header without a second word or with an empty one is a 401 `Token is required`; a second word that does not verify is a 401 `Unauthorized`; the handler runs exactly when the second word verifies, bound to the id it carries |
| Auth.Guarded | backend/middleware/auth.js:37-44 | a rejected request gets the gate's reply and keeps the state; an accepted one gets the handler run with the user id its token carries |
| Auth.RejectedNeverRunsHandler | backend/middleware/auth.js:21-33 | a rejected request's reply is a 401 that no handler can influence |
| Auth.SchemeNotChecked | backend/middleware/auth.js:25-28 | any first word is accepted as the scheme; only the second word goes to `jwt.verify` |
| Auth.OneWordHeader | backend/middleware/auth.js:28-32 | a one-word header such as `Bearer` alone is a 401 `Token is required` |
| Auth.TrailingSpaceHeader | backend/middleware/auth.js:28-32 | a single trailing space after the first word (`Bearer `) leaves an empty second word, a 401 `Token is required` |
| Auth.DoubleSpaceHeader | backend/middleware/auth.js:28-32 | two spaces after the scheme leave an empty second word, a 401 `Token is required` |
| UserSchema.Empty | backend/models/User.js:4-18 | the empty user collection satisfies the invariant |
| UserSchema.FindByEmail | backend/Routes/userRoutes.js:20 | `findOne({email})` is an exact match on the stored email |
| UserSchema.Create | backend/models/User.js:4-18 | creation fails validation on an empty field and fails on the unique index exactly when the email is stored; otherwise it appends a user with a fresh id, keeping the invariant |
| Accounts.Signup | backend/Routes/userRoutes.js:10-35 | a falsy field is a 400; a normalised email already stored is a 400; a 201 appends one user with the email as sent and the password's hash; every other failure is a 500 `Something went wrong. Please try again.` that changes nothing |
| Accounts.Register | backend/Routes/userRoutes.js:30-34 | `User.create` is a 201 appending the user under a fresh `_id` exactly when every field is set and the email is not stored yet, and otherwise a 500 that changes nothing; the unique index is kept |
| Accounts.Login | backend/Routes/userRoutes.js:38-69 | missing credentials are a 400; an unknown normalised email is a 404; the reply is a 200 with a one-hour token for the user's `_id` exactly when bcrypt matches; a known user with a password bcrypt does not match is a 401, and a non-string password a 500; the 404 and 401 carry the same message |
| Accounts.WhoAmI | backend/Routes/userRoutes.js:72-74 | `GET /users/auth` answers exactly when the gate accepts, with the id it bound |
| Accounts.SignupLoginWhoAmI | backend/Routes/userRoutes.js:10-74 | signing up with a normalised email, logging in with any spelling of it, and presenting the token identifies the new user |
| Accounts.BearerIdentifies | backend/Routes/userRoutes.js:72-74 | a verifiable token sent as `Bearer <token>` makes `GET /users/auth` answer with its user |
| Accounts.SignupFindsNewUser | backend/Routes/userRoutes.js:47 | a user appended under an email no earlier user has is the one a lookup of that email finds |
| Accounts.SignupStoresRawEmail | backend/Routes/userRoutes.js:19-30 | as written, a signup with an address that normalisation changes succeeds, but a login with that address is a 404 and a second signup with it is a 500 |
| Accounts.AnnIsNotNormalized | backend/Routes/userRoutes.js:19 | `Ann@x.com` is such an address |
| Accounts.SignupNormalized | backend/Routes/userRoutes.js:19-30 | the corrected signup stores the normalised email, with the same replies otherwise |
| Accounts.NormalizedSignupThenLogin | backend/Routes/userRoutes.js:19-53 | with the corrected signup, every spelling that normalises to the signup address logs in |
| Accounts.NormalizedSignupRejectsRespelling | backend/Routes/userRoutes.js:19-24 | with the corrected signup, a second signup under any spelling of a stored address is the 400 `Email already exists` |
| ProtoMovies.List | Routes/movieRoutes.js:14-17 | `GET /` is a 200 with the whole list, in order |
| ProtoMovies.Push | Routes/movieRoutes.js:56-57 | a push appends `{id: counter, title}`, increments the counter and keeps ids increasing and below the counter |
| ProtoMovies.Initial | Routes/movieRoutes.js:5-12 | the initial list holds 5 movies with ids 1 to 5, and the counter is 6 |
| ProtoMovies.Get | Routes/movieRoutes.js:31-41 | `GET /:id` finds a movie whose id is `parseInt` of the parameter exactly when one exists, and is a 404 otherwise |
| ProtoMovies.Post | Routes/movieRoutes.js:46-63 | a missing body or a title that is not a non-empty string is a 400 that changes nothing; otherwise one movie is appended under the counter |
| ProtoMovies.Remove | Routes/movieRoutes.js:68 | the filtered list holds exactly the movies whose id differs from the key |
| ProtoMovies.RemoveKeepsOrder | Routes/movieRoutes.js:68 | filtering keeps the remaining ids in increasing order |
| ProtoMovies.RemoveAbsent | Routes/movieRoutes.js:68 | filtering out an id no movie has changes nothing |
| ProtoMovies.Delete | Routes/movieRoutes.js:65-70 | `DELETE /` drops every movie with the parsed body id and keeps the rest in order; an unknown id changes nothing; a missing body is a 500 |
| ProtoMovies.Put | Routes/movieRoutes.js:72-89 | `PUT /:id` replaces the title of one movie with that id and changes nothing else; an unknown id is a 404 and a missing body a 400 |
| ProtoMovies.PostThenGet | Routes/movieRoutes.js:31-58 | a freshly posted movie is found by `GET /:id` under the counter's decimal value |
| ProtoMovies.UniqueId | Routes/movieRoutes.js:56 | under the invariant, no two listed movies share an id |
| ProtoMovies.PutThenGet | Routes/movieRoutes.js:31-85 | after a successful `PUT`, `GET` on the same parameter finds the movie with its new title |
| ProtoMovies.DeleteThenGet | Routes/movieRoutes.js:31-70 | after a `DELETE` of an id, `GET` on that id is a 404 |
| ProtoUsers.FindByEmail | Routes/userRoutes.js:15 | the lookup is an exact match on the email as sent |
| ProtoUsers.Signup | Routes/userRoutes.js:7-26 | a falsy field is a 400; an exact email hit is a 400; otherwise the user is stored as sent, plaintext password included, with a 201; stored emails stay distinct |
| ProtoUsers.Login | Routes/userRoutes.js:28-49 | missing credentials are a 400; an unknown email is a 404; the reply is a 200 with no token exactly when the stored password is strictly equal to the one sent, and a 401 otherwise |
| ProtoUsers.FoundIsOnly | Routes/userRoutes.js:15-19 | under the invariant, a lookup by email finds the only user with it |
| ProtoUsers.SignupThenLogin | Routes/userRoutes.js:7-45 | after a signup, a login with the same email succeeds with the same password and is a 401 with any other |
| ProtoUsers.EmailsAreCaseSensitive | Routes/userRoutes.js:15-19 | `ann@x.com` and `Ann@x.com` can both sign up |

## Left out

- Network and process plumbing are not modelled: `fetch`, the TMDb URLs and API key, `encodeURIComponent`, the server files, the database connection, CORS and environment variables. The catalogue reply is a parameter.
- bcrypt and jsonwebtoken internals are not modelled: hashing, salting, signing, signature checks and token expiry. They are uninterpreted functions, and `SaltRounds` and the one-hour lifetime are recorded as constants only.
- The race between `findOne` and `create` is not modelled. Each store operation is atomic, so the unique index is checked in one step.
- Floating-point values are opaque: `vote_average` and `revenue` are a truthiness bit plus a text, so their `toString`, `toLocaleString` and the digits after the `$` of the box office are not modelled. `vote_count` is an integer, written in decimal.
- `Date.now()` and bcrypt's salt are parameters.
- MongoDB's real `_id` (a 24-digit hex ObjectId) is a natural number in canonical decimal.
- `String(n)` for integers of 10^21 and above, which JavaScript writes in exponent notation, is not modelled: every integer is written in plain decimal.
- `toLowerCase` folds only ASCII letters; `trim` uses the full ECMAScript white-space set.
- Request-body fields that are objects or arrays are not modelled: a field is `undefined`, `null`, a boolean, an integer or a string.
- The text of an unexpected exception is not modelled: such replies carry one fixed message.
- The frontend is not modelled. A 409 treated as success by the add-to-watchlist helper is client policy.
- The legacy schema models/Movie.js has no index and no behaviour, and is not part of this model.
- The prototype account routes import a root `models/User.js` that is not part of this model. Its `create` is taken to accept every record.
- The prototype `GET /search` passthrough only forwards the catalogue's JSON, so it has nothing to model beyond the fetch.
- Runtime formatting as hours and minutes and trailer selection do not occur in the code, so they are not modelled.
- Express routing details are not modelled, such as `/search` being matched before `/:id`. Express 4's default `{}` body is not modelled either; a missing body is an explicit `None`.
- MovieSchema.FindByUser: does not state the order of the records, because MongoDB's `find` without a sort promises none; how often each record appears is stated.
- Watchlist.List: does not state the order of the records, for the same reason; how often each record appears is stated.
- Js.ParseInt: the value is an exact integer, while JavaScript's `parseInt` returns a double that rounds digit runs above 2^53; prototype ids stay far below that.

## Findings

| source | as written | input that shows it | evidently intended | confidence | as-written member | corrected member |
|---|---|---|---|---|---|---|
| backend/Routes/userRoutes.js:19-30 | the duplicate check and the login look up `String(email).trim().toLowerCase()`, but the new user is stored with `email` as sent | signup `Ann@x.com`, then login `Ann@x.com`: the login looks up `ann@x.com` and is a 404; a second signup with `Ann@x.com` passes the 400 check and fails on the unique index, a 500 | store the normalised email, as the comment on backend/Routes/userRoutes.js:18 says, so that `unique: true` on the email field (backend/models/User.js:12) also holds across spellings | not executed | Accounts.Signup, with Accounts.SignupStoresRawEmail | Accounts.SignupNormalized, with Accounts.NormalizedSignupThenLogin and Accounts.NormalizedSignupRejectsRespelling |

=== FILE: accounts.dfy ===
/**
 * The account routes (backend/Routes/userRoutes.js): `POST /users/signup`,
 * `POST /users/login` and `GET /users/auth`. bcrypt and jsonwebtoken are
 * opaque functions supplied by the caller; the salt bcrypt draws at random
 * is a parameter.
 */
module Accounts {
  import opened Common
  import opened Text
  import opened Js
  import opened Http
  import opened Auth
  import opened UserSchema

  const FieldsRequired := "All fields are required"
  const EmailExists := "Email already exists"
  const UserCreated := "User created successfully"
  const CredentialsRequired := "Email and password are required"
  const BadCredentials := "Incorrect username or password"
  const SomethingWentWrong := "Something went wrong. Please try again."
  /** bcrypt's cost factor. */
  const SaltRounds := 10
  /** `expiresIn: "1h"`. */
  const TokenLifetimeSeconds := 3600

  /** bcrypt: `hash(password, salt)` and `compare(password, hash)`. */
  datatype Hasher = Hasher(hash: (string, string) -> string, compare: (string, string) -> bool)

  /** The payload and options a login signs: `{userId: user._id}` for one hour. */
  datatype Claims = Claims(userId: string, expiresInSeconds: nat)

  /** What the model relies on of bcrypt, for one password: its hash is not empty and matches it. */
  predicate HashMatches(h: Hasher, password: string, salt: string)
  {
    h.hash(password, salt) != "" && h.compare(password, h.hash(password, salt))
  }

  /**
   * What the model relies on of jsonwebtoken, for one payload and a token
   * still within its lifetime: the token is not empty, has no space, and
   * verifies back to the payload's user id.
   */
  predicate TokenVerifies(sign: Claims -> string, verify: string -> Option<string>, c: Claims)
  {
    sign(c) != "" && ' ' !in sign(c) && verify(sign(c)) == Some(c.userId)
  }

  /** The `_id` of a user as it travels in a token. */
  function UserIdText(u: User): string
  {
    NatToString(u.id)
  }

  /** `String(email).trim().toLowerCase()`. */
  function LookupEmail(email: JsValue): string
  {
    NormalizeEmail(ToJsString(email))
  }

  /**
   * `POST /users/signup`: every field must be truthy; the duplicate check
   * looks up the normalised email, but the user is stored with the email as
   * sent and with the bcrypt hash of the password. bcrypt refuses a password
   * that is not text, and the store refuses a stored email already present:
   * both are caught as a 500.
   */
  function Signup(st: UserStore, fullName: JsValue, email: JsValue, password: JsValue, h: Hasher, salt: string)
    : (r: (Reply<string>, UserStore))
    ensures !Truthy(fullName) || !Truthy(email) || !Truthy(password) ==> r == (Err(400, FieldsRequired), st)
    ensures Truthy(fullName) && Truthy(email) && Truthy(password) && FindByEmail(st, LookupEmail(email)).Some?
            ==> r == (Err(400, EmailExists), st)
    ensures r.0.Ok? <==> && Truthy(fullName) && Truthy(email) && Truthy(password)
                         && FindByEmail(st, LookupEmail(email)).None?
                         && password.Str?
                         && h.hash(password.s, salt) != ""
                         && FindByEmail(st, ToJsString(email)).None?
    ensures r.0.Ok? ==> && r.0 == Ok(201, UserCreated)
                        && r.1 == UserStore(st.users + [User(st.nextId, ToJsString(fullName), ToJsString(email), h.hash(password.s, salt))], st.nextId + 1)
    ensures r.0.Err? && r.0.code != 400 ==> r.0 == Err(500, SomethingWentWrong)
    ensures !r.0.Ok? ==> r.1 == st
    ensures Invariant(st) ==> Invariant(r.1)
  {
    if !Truthy(fullName) || !Truthy(email) || !Truthy(password) then (Err(400, FieldsRequired), st)
    else if FindByEmail(st, LookupEmail(email)).Some? then (Err(400, EmailExists), st)
    else if !password.Str? then (Err(500, SomethingWentWrong), st)
    else
      Register(st, ToJsString(fullName), ToJsString(email), h.hash(password.s, salt))
  }

  /**
   * The `User.create` step of a signup: an empty field fails validation and
   * a stored email the unique index, both caught as a 500; otherwise the
   * user is appended under a fresh `_id` and the reply is 201.
   */
  function Register(st: UserStore, name: string, email: string, hash: string): (r: (Reply<string>, UserStore))
    ensures r.0.Ok? <==> name != "" && email != "" && hash != "" && FindByEmail(st, email).None?
    ensures r.0.Ok? ==> && r.0 == Ok(201, UserCreated)
                        && r.1 == UserStore(st.users + [User(st.nextId, name, email, hash)], st.nextId + 1)
    ensures !r.0.Ok? ==> r == (Err(500, SomethingWentWrong), st)
    ensures Invariant(st) ==> Invariant(r.1)
  {
    match Create(st, name, email, hash)
    case Failure(_) => (Err(500, SomethingWentWrong), st)
    case Success((st', _)) => (Ok(201, UserCreated), st')
  }

  /**
   * `POST /users/login`: missing credentials are a 400, an unknown
   * normalised email a 404, a password bcrypt does not match a 401, with the
   * same message as the 404; a match is a 200 carrying a token signed for
   * the user's `_id`, valid for one hour.
   */
  function Login(st: UserStore, email: JsValue, password: JsValue, h: Hasher, sign: Claims -> string)
    : (r: Reply<string>)
    ensures !Truthy(email) || !Truthy(password) ==> r == Err(400, CredentialsRequired)
    ensures Truthy(email) && Truthy(password) && FindByEmail(st, LookupEmail(email)).None?
            ==> r == Err(404, BadCredentials)
    ensures r.Ok? <==> && Truthy(email) && Truthy(password)
                       && FindByEmail(st, LookupEmail(email)).Some?
                       && password.Str?
                       && h.compare(password.s, FindByEmail(st, LookupEmail(email)).value.password)
    ensures r.Ok? ==> r == Ok(200, sign(Claims(UserIdText(FindByEmail(st, LookupEmail(email)).value), TokenLifetimeSeconds)))
    ensures Truthy(email) && Truthy(password) && FindByEmail(st, LookupEmail(email)).Some? && !password.Str?
            ==> r == Err(500, SomethingWentWrong)
    ensures Truthy(email) && Truthy(password) && password.Str? && FindByEmail(st, LookupEmail(email)).Some?
            && !h.compare(password.s, FindByEmail(st, LookupEmail(email)).value.password)
            ==> r == Err(401, BadCredentials)
    ensures r.Err? && (r.code == 401 || r.code == 404) ==> r.message == BadCredentials
  {
    if !Truthy(email) || !Truthy(password) then Err(400, CredentialsRequired)
    else
      match FindByEmail(st, LookupEmail(email))
      case None => Err(404, BadCredentials)
      case Some(user) =>
        if !password.Str? then Err(500, SomethingWentWrong)
        else if h.compare(password.s, user.password) then
          Ok(200, sign(Claims(UserIdText(user), TokenLifetimeSeconds)))
        else Err(401, BadCredentials)
  }

  /** `GET /users/auth`: the `userId` the gate bound, or the gate's 401. */
  function WhoAmI(header: Option<string>, verify: string -> Option<string>): (r: Reply<string>)
    ensures r.Ok? <==> Authenticate(header, verify).Continue?
    ensures r.Ok? ==> r == Ok(200, Authenticate(header, verify).userId)
    ensures r.Err? ==> r.code == 401
  {
    Guarded(header, verify, 0, (userId: string) => (Ok(200, userId), 0)).0
  }

  /**
   * Signing up with an already-normalised email, logging in with any
   * spelling of it that normalises to it, and presenting the token as
   * `Bearer <token>` identifies the new user.
   */
  lemma SignupLoginWhoAmI(st: UserStore, name: string, email: string, spelling: string, password: string,
                          h: Hasher, salt: string, sign: Claims -> string, verify: string -> Option<string>)
    requires HashMatches(h, password, salt)
    requires TokenVerifies(sign, verify, Claims(NatToString(st.nextId), TokenLifetimeSeconds))
    requires name != "" && email != "" && password != "" && spelling != ""
    requires NormalizeEmail(email) == email && NormalizeEmail(spelling) == email
    requires FindByEmail(st, email).None?
    ensures var (r1, st1) := Signup(st, Str(name), Str(email), Str(password), h, salt);
      && r1 == Ok(201, UserCreated)
      && var token := sign(Claims(NatToString(st.nextId), TokenLifetimeSeconds));
      && Login(st1, Str(spelling), Str(password), h, sign) == Ok(200, token)
      && WhoAmI(Some("Bearer " + token), verify) == Ok(200, NatToString(st.nextId))
  {
    var hashed := h.hash(password, salt);
    assert hashed != "" && h.compare(password, hashed);
    LookupSpelling(email, email);
    LookupSpelling(spelling, email);
    var u := User(st.nextId, name, email, hashed);
    var st1 := UserStore(st.users + [u], st.nextId + 1);
    SignupFresh(st, name, email, email, password, h, salt);
    SignupFindsNewUser(st, st1, u);
    LoginFound(st1, u, spelling, password, h, sign);
    var token := sign(Claims(NatToString(st.nextId), TokenLifetimeSeconds));
    BearerIdentifies(token, verify, NatToString(st.nextId));
  }

  /** A signup for an address no stored user has, under either spelling the handler consults, is a 201. */
  lemma SignupFresh(st: UserStore, name: string, email: string, key: string, password: string, h: Hasher, salt: string)
    requires name != "" && email != "" && password != "" && h.hash(password, salt) != ""
    requires LookupEmail(Str(email)) == key && FindByEmail(st, key).None? && FindByEmail(st, email).None?
    ensures Signup(st, Str(name), Str(email), Str(password), h, salt)
      == (Ok(201, UserCreated), UserStore(st.users + [User(st.nextId, name, email, h.hash(password, salt))], st.nextId + 1))
  {
  }

  /** A login whose spelling finds a user whose hash matches the password is a 200 with that user's token. */
  lemma LoginFound(st: UserStore, u: User, spelling: string, password: string, h: Hasher, sign: Claims -> string)
    requires spelling != "" && password != ""
    requires FindByEmail(st, LookupEmail(Str(spelling))) == Some(u) && h.compare(password, u.password)
    ensures Login(st, Str(spelling), Str(password), h, sign) == Ok(200, sign(Claims(NatToString(u.id), TokenLifetimeSeconds)))
  {
  }

  /** A verifiable token sent as `Bearer <token>` makes `GET /users/auth` answer with its user. */
  lemma BearerIdentifies(token: string, verify: string -> Option<string>, userId: string)
    requires token != "" && ' ' !in token && verify(token) == Some(userId)
    ensures WhoAmI(Some("Bearer " + token), verify) == Ok(200, userId)
  {
    var scheme := "Bearer";
    assert ' ' !in scheme;
    assert scheme + " " == "Bearer ";
    SchemeNotChecked(scheme, token, "", verify);
    assert scheme + " " + token + "" == "Bearer " + token;
  }

  /** A user appended under an email no earlier user has is the one a lookup of that email finds. */
  lemma SignupFindsNewUser(st: UserStore, st1: UserStore, u: User)
    requires FindByEmail(st, u.email).None?
    requires st1.users == st.users + [u]
    ensures FindByEmail(st1, u.email) == Some(u)
  {
    assert st1.users[|st.users|] == u;
  }

  // ---------------------------------------------------------------------------
  // The email a signup stores
  // ---------------------------------------------------------------------------

  /**
   * Signup as it would be with the normalised email stored as well as looked
   * up: login and the duplicate check then agree on one spelling.
   */
  function SignupNormalized(st: UserStore, fullName: JsValue, email: JsValue, password: JsValue, h: Hasher, salt: string)
    : (r: (Reply<string>, UserStore))
    ensures !Truthy(fullName) || !Truthy(email) || !Truthy(password) ==> r == (Err(400, FieldsRequired), st)
    ensures Truthy(fullName) && Truthy(email) && Truthy(password) && FindByEmail(st, LookupEmail(email)).Some?
            ==> r == (Err(400, EmailExists), st)
    ensures r.0.Ok? ==> && r.0 == Ok(201, UserCreated)
                        && password.Str?
                        && r.1 == UserStore(st.users + [User(st.nextId, ToJsString(fullName), LookupEmail(email), h.hash(password.s, salt))], st.nextId + 1)
    ensures r.0.Err? && r.0.code != 400 ==> r.0 == Err(500, SomethingWentWrong)
    ensures !r.0.Ok? ==> r.1 == st
    ensures Invariant(st) ==> Invariant(r.1)
  {
    if !Truthy(fullName) || !Truthy(email) || !Truthy(password) then (Err(400, FieldsRequired), st)
    else if FindByEmail(st, LookupEmail(email)).Some? then (Err(400, EmailExists), st)
    else if !password.Str? then (Err(500, SomethingWentWrong), st)
    else
      Register(st, ToJsString(fullName), LookupEmail(email), h.hash(password.s, salt))
  }

  /** Every stored email is in normalised form. */
  predicate EmailsNormalized(st: UserStore)
  {
    forall i :: 0 <= i < |st.users| ==> NormalizeEmail(st.users[i].email) == st.users[i].email
  }

  /**
   * With normalised storage, a signup succeeds for every fresh address and a
   * login with any spelling of it then finds the new user and succeeds.
   */
  lemma NormalizedSignupThenLogin(st: UserStore, name: string, email: string, spelling: string, password: string,
                                  h: Hasher, salt: string, sign: Claims -> string)
    requires EmailsNormalized(st) && HashMatches(h, password, salt)
    requires name != "" && email != "" && password != "" && spelling != ""
    requires NormalizeEmail(spelling) == NormalizeEmail(email) && NormalizeEmail(email) != ""
    requires FindByEmail(st, NormalizeEmail(email)).None?
    ensures var (r1, st1) := SignupNormalized(st, Str(name), Str(email), Str(password), h, salt);
      && r1 == Ok(201, UserCreated)
      && EmailsNormalized(st1)
      && Login(st1, Str(spelling), Str(password), h, sign) == Ok(200, sign(Claims(NatToString(st.nextId), TokenLifetimeSeconds)))
  {
    var key := NormalizeEmail(email);
    var hashed := h.hash(password, salt);
    assert hashed != "" && h.compare(password, hashed);
    LookupSpelling(email, key);
    LookupSpelling(spelling, key);
    NormalizeEmailIdempotent(email);
    var u := User(st.nextId, name, key, hashed);
    var st1 := UserStore(st.users + [u], st.nextId + 1);
    SignupNormalizedFresh(st, name, email, key, password, h, salt);
    AppendNormalized(st, u);
    SignupFindsNewUser(st, st1, u);
    LoginFound(st1, u, spelling, password, h, sign);
  }

  lemma SignupNormalizedFresh(st: UserStore, name: string, email: string, key: string, password: string, h: Hasher, salt: string)
    requires name != "" && email != "" && password != "" && h.hash(password, salt) != "" && key != ""
    requires LookupEmail(Str(email)) == key && FindByEmail(st, key).None?
    ensures SignupNormalized(st, Str(name), Str(email), Str(password), h, salt)
      == (Ok(201, UserCreated), UserStore(st.users + [User(st.nextId, name, key, h.hash(password, salt))], st.nextId + 1))
  {
  }

  lemma AppendNormalized(st: UserStore, u: User)
    requires EmailsNormalized(st) && NormalizeEmail(u.email) == u.email
    ensures EmailsNormalized(UserStore(st.users + [u], st.nextId + 1))
  {
    var st1 := UserStore(st.users + [u], st.nextId + 1);
    assert forall i :: 0 <= i < |st.users| ==> st1.users[i] == st.users[i];
  }

  /**
   * With normalised storage, a second signup under any spelling of a stored
   * address is the 400 `Email already exists`, never an index violation.
   */
  lemma NormalizedSignupRejectsRespelling(st: UserStore, email: string, spelling: string, name: string,
                                          password: string, h: Hasher, salt: string)
    requires EmailsNormalized(st) && email != "" && spelling != "" && name != "" && password != ""
    requires NormalizeEmail(spelling) == NormalizeEmail(email)
    requires exists i :: 0 <= i < |st.users| && st.users[i].email == email
    ensures SignupNormalized(st, Str(name), Str(spelling), Str(password), h, salt) == (Err(400, EmailExists), st)
  {
    var i :| 0 <= i < |st.users| && st.users[i].email == email;
    assert NormalizeEmail(email) == email;
    LookupSpelling(spelling, email);
    assert FindByEmail(st, email).Some?;
    SignupNormalizedTaken(st, email, spelling, name, password, h, salt);
  }

  lemma SignupNormalizedTaken(st: UserStore, email: string, spelling: string, name: string,
                              password: string, h: Hasher, salt: string)
    requires spelling != "" && name != "" && password != ""
    requires LookupEmail(Str(spelling)) == email && FindByEmail(st, email).Some?
    ensures SignupNormalized(st, Str(name), Str(spelling), Str(password), h, salt) == (Err(400, EmailExists), st)
  {
  }

  /** A spelling that normalises to an address already in normal form is looked up as that address. */
  lemma LookupSpelling(spelling: string, email: string)
    requires NormalizeEmail(spelling) == email
    ensures LookupEmail(Str(spelling)) == email
  {
  }

  /**
   * As written, a signup stores the email as given while every lookup uses
   * its normalised form. For an address that normalisation changes (such as
   * `Ann@x.com`, see `AnnIsNotNormalized`), the new account cannot log in
   * with the address it signed up with, and signing up again with the same
   * address gets past the 400 check and is a 500.
   */
  lemma SignupStoresRawEmail(st: UserStore, name: string, raw: string, password: string,
                             h: Hasher, salt: string, sign: Claims -> string)
    requires h.hash(password, salt) != ""
    requires name != "" && raw != "" && password != ""
    requires NormalizeEmail(raw) != raw
    requires FindByEmail(st, raw).None? && FindByEmail(st, NormalizeEmail(raw)).None?
    ensures var (r1, st1) := Signup(st, Str(name), Str(raw), Str(password), h, salt);
      && r1 == Ok(201, UserCreated)
      && Login(st1, Str(raw), Str(password), h, sign) == Err(404, BadCredentials)
      && Signup(st1, Str(name), Str(raw), Str(password), h, salt).0 == Err(500, SomethingWentWrong)
  {
    var key := NormalizeEmail(raw);
    var hashed := h.hash(password, salt);
    assert hashed != "";
    LookupSpelling(raw, key);
    var u := User(st.nextId, name, raw, hashed);
    var st1 := UserStore(st.users + [u], st.nextId + 1);
    SignupFresh(st, name, raw, key, password, h, salt);
    AppendMissesKey(st, u, key);
    SignupFindsNewUser(st, st1, u);
    LoginMissing(st1, raw, password, h, sign);
    SecondSignupClashes(st1, name, raw, password, h, salt);
  }

  /** Appending a user under another email does not make a missing email findable. */
  lemma AppendMissesKey(st: UserStore, u: User, key: string)
    requires FindByEmail(st, key).None? && u.email != key
    ensures FindByEmail(UserStore(st.users + [u], st.nextId + 1), key).None?
  {
    var st1 := UserStore(st.users + [u], st.nextId + 1);
    assert forall i :: 0 <= i < |st.users| ==> st1.users[i] == st.users[i];
  }

  /** A login whose spelling finds nobody is a 404. */
  lemma LoginMissing(st: UserStore, spelling: string, password: string, h: Hasher, sign: Claims -> string)
    requires spelling != "" && password != ""
    requires FindByEmail(st, LookupEmail(Str(spelling))).None?
    ensures Login(st, Str(spelling), Str(password), h, sign) == Err(404, BadCredentials)
  {
  }

  /** A signup whose normalised email is free but whose raw email is taken fails at the store: a 500. */
  lemma SecondSignupClashes(st: UserStore, name: string, raw: string, password: string, h: Hasher, salt: string)
    requires name != "" && raw != "" && password != ""
    requires FindByEmail(st, LookupEmail(Str(raw))).None? && FindByEmail(st, raw).Some?
    ensures Signup(st, Str(name), Str(raw), Str(password), h, salt).0 == Err(500, SomethingWentWrong)
  {
  }

  /** `Ann@x.com` is an address that normalisation changes. */
  lemma AnnIsNotNormalized()
    ensures NormalizeEmail("Ann@x.com") != "Ann@x.com"
  {
    var raw := "Ann@x.com";
    assert raw[0] == 'A' && raw[|raw| - 1] == 'm';
    CapitalNotNormalized(raw);
  }
}

=== FILE: auth.dfy ===
/**
 * The authorization gate (backend/middleware/auth.js) in front of every
 * watchlist route and `GET /users/auth`. The token is the second word of the
 * `Authorization` header split on single spaces; the first word is not
 * looked at. Token verification (jsonwebtoken with the process secret,
 * signature and expiry) is an opaque function from a token to the `userId`
 * its payload carries, `None` for every kind of failure.
 */
module Auth {
  import opened Common
  import opened Text
  import opened Http

  const Unauthorized := "Unauthorized"
  const TokenRequired := "Token is required"

  /** What the gate decides: reply 401, or hand the request on with `userId` bound. Never both. */
  datatype Gate = Reject(code: int, message: string) | Continue(userId: string)

  /** `header.split(' ')[1]`, absent when the header has no space. */
  function SecondWord(header: string): (r: Option<string>)
    ensures r.Some? <==> ' ' in header
  {
    var parts := Split(header, ' ');
    SplitJoin(header, ' ');
    SplitPiecesFree(header, ' ');
    if |parts| >= 2 then Some(parts[1]) else None
  }

  /** `authenticateToken`: a missing header, a missing token and a failed verification each end in 401. */
  function Authenticate(header: Option<string>, verify: string -> Option<string>): (g: Gate)
    ensures g.Reject? ==> g.code == 401
    ensures g.Reject? ==> g.message == Unauthorized || g.message == TokenRequired
    ensures header.None? || header == Some("") ==> g == Reject(401, Unauthorized)
    ensures header.Some? && header.value != "" && (SecondWord(header.value).None? || SecondWord(header.value) == Some(""))
            ==> g == Reject(401, TokenRequired)
    ensures header.Some? && SecondWord(header.value).Some? && SecondWord(header.value).value != ""
            && verify(SecondWord(header.value).value).None?
            ==> g == Reject(401, Unauthorized)
    ensures g.Continue? <==> && header.Some?
                             && SecondWord(header.value).Some?
                             && SecondWord(header.value).value != ""
                             && verify(SecondWord(header.value).value).Some?
    ensures g.Continue? ==> Some(g.userId) == verify(SecondWord(header.value).value)
  {
    if header.None? || header.value == "" then Reject(401, Unauthorized)
    else
      match SecondWord(header.value)
      case None => Reject(401, TokenRequired)
      case Some(token) =>
        if token == "" then Reject(401, TokenRequired)
        else
          match verify(token)
          case None => Reject(401, Unauthorized)
          case Some(userId) => Continue(userId)
  }

  /**
   * A route behind the gate: on rejection the reply is the gate's 401 and
   * the state is untouched, whatever the handler would have done; otherwise
   * the reply and state are the handler's, run for the bound `userId`.
   */
  function Guarded<S(==), T(==)>(header: Option<string>, verify: string -> Option<string>,
                                 state: S, handler: string -> (Reply<T>, S)): (r: (Reply<T>, S))
    ensures Authenticate(header, verify).Reject? ==>
      r == (Err(401, Authenticate(header, verify).message), state)
    ensures Authenticate(header, verify).Continue? ==>
      r == handler(Authenticate(header, verify).userId)
  {
    match Authenticate(header, verify)
    case Reject(code, message) => (Err(code, message), state)
    case Continue(userId) => handler(userId)
  }

  /** A rejected request does not depend on the handler at all: it is never run. */
  lemma RejectedNeverRunsHandler<S, T>(header: Option<string>, verify: string -> Option<string>, state: S,
                                               h1: string -> (Reply<T>, S), h2: string -> (Reply<T>, S))
    requires Authenticate(header, verify).Reject?
    ensures Guarded(header, verify, state, h1) == Guarded(header, verify, state, h2)
    ensures Guarded(header, verify, state, h1).0.code == 401
  {
  }

  /**
   * Whatever the first word is, a header `<word> <token>` (possibly followed
   * by more space-separated words) is decided by verifying `token` alone;
   * every failed verification gives the same 401 `Unauthorized`.
   */
  lemma {:induction false} SchemeNotChecked(scheme: string, token: string, rest: string,
                                            verify: string -> Option<string>)
    requires ' ' !in scheme && ' ' !in token && token != ""
    requires rest == "" || rest[0] == ' '
    ensures var g := Authenticate(Some(scheme + " " + token + rest), verify);
      && (verify(token).None? ==> g == Reject(401, Unauthorized))
      && (verify(token).Some? ==> g == Continue(verify(token).value))
  {
    var header := scheme + " " + token + rest;
    assert header == scheme + [' '] + (token + rest);
    SplitAfterWord(scheme, ' ', token + rest);
    if rest == "" {
      assert token + rest == token;
      SplitWord(token, ' ');
    } else {
      assert token + rest == token + [' '] + rest[1..];
      SplitAfterWord(token, ' ', rest[1..]);
    }
    assert SecondWord(header) == Some(token);
  }

  /** A header of one word, such as `Bearer` alone, carries no token. */
  lemma {:induction false} OneWordHeader(word: string, verify: string -> Option<string>)
    requires ' ' !in word && word != ""
    ensures Authenticate(Some(word), verify) == Reject(401, TokenRequired)
  {
    SplitWord(word, ' ');
  }

  /** Two spaces after the first word (`Bearer  x`) leave an empty second word: no token. */
  lemma {:induction false} DoubleSpaceHeader(word: string, rest: string, verify: string -> Option<string>)
    requires ' ' !in word
    ensures Authenticate(Some(word + "  " + rest), verify) == Reject(401, TokenRequired)
  {
    var header := word + "  " + rest;
    assert header == word + [' '] + (" " + rest);
    SplitAfterWord(word, ' ', " " + rest);
    assert " " + rest == "" + [' '] + rest;
    SplitAfterWord("", ' ', rest);
    assert SecondWord(header) == Some("");
  }

  /** A first word followed by a single trailing space (`Bearer `) leaves an empty second word: no token. */
  lemma {:induction false} TrailingSpaceHeader(word: string, verify: string -> Option<string>)
    requires ' ' !in word
    ensures SecondWord(word + " ") == Some("")
    ensures Authenticate(Some(word + " "), verify) == Reject(401, TokenRequired)
  {
    var header := word + " ";
    assert header == word + [' '] + "";
    SplitAfterWord(word, ' ', "");
  }
}

=== FILE: catalog.dfy ===
/**
 * The catalog side of the movie routes (backend/Routes/movieRoutes.js):
 * `GET /movies/search` reshapes search hits, `GET /movies/details/:movieId`
 * normalises a detail reply. The catalog itself is a parameter: a function
 * from the text put into the request URL to the decoded JSON reply, `None`
 * when the request or the JSON decoding fails.
 */
module Catalog {
  import opened Common
  import opened Http
  import opened Tmdb

  const QueryRequired := "Search query is required"
  const NotInCatalog := "Movie not found in TMDb"
  const DetailNotFound := "Movie not found"

  /** A search hit as the search route returns it. */
  datatype MovieSummary = MovieSummary(
    id: Option<int>,
    title: Option<string>,
    releaseDate: Option<string>,
    posterPath: Option<string>,
    overview: Option<string>,
    voteAverage: Option<Number>,
    voteCount: Option<int>)

  /** `s` is `hit` reshaped: the poster path made absolute when present, null otherwise, the rest unchanged. */
  predicate Summarizes(hit: SearchHit, s: MovieSummary)
  {
    && s.id == hit.id
    && s.title == hit.title
    && s.releaseDate == hit.releaseDate
    && s.overview == hit.overview
    && s.voteAverage == hit.voteAverage
    && s.voteCount == hit.voteCount
    && (Present(hit.posterPath) ==> s.posterPath == Some(PosterBase + hit.posterPath.value))
    && (!Present(hit.posterPath) ==> s.posterPath.None?)
  }

  function Summarize(hit: SearchHit): (s: MovieSummary)
    ensures Summarizes(hit, s)
  {
    MovieSummary(hit.id, hit.title, hit.releaseDate, ImageUrl(PosterBase, hit.posterPath),
                 hit.overview, hit.voteAverage, hit.voteCount)
  }

  /** The hits of a reply that has a non-empty `results` list. */
  predicate HasHits(reply: Option<SearchPayload>)
  {
    reply.Some? && reply.value.results.Some? && |reply.value.results.value| > 0
  }

  /**
   * `GET /movies/search?query=`: a missing or empty query is refused before
   * the catalog is asked; an empty result list is a 404; a reply without a
   * `results` list makes `data.results.map` throw, a 500.
   */
  function Search(query: Option<string>, catalog: string -> Option<SearchPayload>): (r: Reply<seq<MovieSummary>>)
    ensures !Present(query) ==> r == Err(400, QueryRequired)
    ensures Present(query) && catalog(query.value).Some? && catalog(query.value).value.results == Some([])
            ==> r == Err(404, NotInCatalog)
    ensures Present(query) && (catalog(query.value).None? || catalog(query.value).value.results.None?)
            ==> r == Err(500, UnexpectedError)
    ensures r.Ok? <==> Present(query) && HasHits(catalog(query.value))
    ensures r.Ok? ==> r.code == 200
    ensures r.Ok? ==> var hits := catalog(query.value).value.results.value;
      |r.value| == |hits| && forall i :: 0 <= i < |hits| ==> Summarizes(hits[i], r.value[i])
  {
    if !Present(query) then Err(400, QueryRequired)
    else
      match catalog(query.value)
      case None => Err(500, UnexpectedError)
      case Some(data) =>
        if data.results == Some([]) then Err(404, NotInCatalog)
        else if data.results.None? then Err(500, UnexpectedError)
        else Ok(200, Map(data.results.value, Summarize))
  }

  /** A refused query never depends on what the catalog would have answered. */
  lemma SearchRejectsBeforeUpstream(query: Option<string>, c1: string -> Option<SearchPayload>, c2: string -> Option<SearchPayload>)
    requires !Present(query)
    ensures Search(query, c1) == Search(query, c2) == Err(400, QueryRequired)
  {
  }

  /** The normalised detail view. */
  datatype MovieDetail = MovieDetail(
    id: int,
    title: Option<string>,
    releaseDate: Option<string>,
    logo: Option<string>,
    backdrop: Option<string>,
    poster: Option<string>,
    overview: Option<string>,
    genres: Option<seq<Named>>,
    director: Option<string>,
    runtime: Option<int>,
    originalLanguage: Option<string>,
    voteAverage: Option<Number>,
    voteCount: Option<int>,
    cast: seq<CastMember>,
    crew: seq<CrewMember>,
    productionCountries: Option<seq<Named>>,
    productionCompanies: Option<seq<Named>>,
    revenue: Option<Number>)

  /** `data.status_code || !data.id`: the catalog reported an error, or the reply names no movie. */
  predicate CatalogMiss(data: DetailPayload)
  {
    PresentInt(data.statusCode) || !PresentInt(data.id)
  }

  /** `data.status_message || fallback`. */
  function MissMessage(data: DetailPayload, fallback: string): (m: string)
    ensures m == fallback || Some(m) == data.statusMessage
    ensures Present(data.statusMessage) ==> m == data.statusMessage.value
    ensures !Present(data.statusMessage) ==> m == fallback
  {
    if Present(data.statusMessage) then data.statusMessage.value else fallback
  }

  /** The fields the detail view passes on from the catalog's reply unchanged. */
  predicate CopiesPayload(data: DetailPayload, v: MovieDetail)
  {
    && v.title == data.title
    && v.releaseDate == data.releaseDate
    && v.overview == data.overview
    && v.genres == data.genres
    && v.runtime == data.runtime
    && v.originalLanguage == data.originalLanguage
    && v.voteAverage == data.voteAverage
    && v.voteCount == data.voteCount
    && v.productionCountries == data.productionCountries
    && v.productionCompanies == data.productionCompanies
    && v.revenue == data.revenue
  }

  /** How many cast entries the detail view keeps. */
  const DetailCastSize := 9

  /**
   * `GET /movies/details/:movieId`: a catalog miss is a 404; otherwise the
   * reply is reshaped with absolute image URLs, the first director, the first
   * nine cast entries and the first English logo.
   */
  function Details(movieId: string, catalog: string -> Option<DetailPayload>): (r: Reply<MovieDetail>)
    ensures catalog(movieId).None? ==> r.code == 500
    ensures catalog(movieId).Some? ==> (r.code == 404 <==> CatalogMiss(catalog(movieId).value))
    ensures catalog(movieId).Some? && CatalogMiss(catalog(movieId).value)
            ==> r == Err(404, MissMessage(catalog(movieId).value, DetailNotFound))
    ensures r.Ok? <==> catalog(movieId).Some? && !CatalogMiss(catalog(movieId).value)
    ensures r.Ok? ==> var data := catalog(movieId).value;
      && r.code == 200
      && Some(r.value.id) == data.id
      && CopiesPayload(data, r.value)
      && r.value.director == Director(data)
      && r.value.logo == EnglishLogo(data)
      && r.value.cast <= CastOf(data)
      && |r.value.cast| == (if |CastOf(data)| < DetailCastSize then |CastOf(data)| else DetailCastSize)
      && r.value.crew == CrewOf(data)
      && (r.value.poster.Some? <==> Present(data.posterPath))
      && (r.value.poster.Some? ==> r.value.poster.value == OriginalBase + data.posterPath.value)
      && (r.value.backdrop.Some? <==> Present(data.backdropPath))
      && (r.value.backdrop.Some? ==> r.value.backdrop.value == OriginalBase + data.backdropPath.value)
  {
    match catalog(movieId)
    case None => Err(500, UnexpectedError)
    case Some(data) =>
      if CatalogMiss(data) then Err(404, MissMessage(data, DetailNotFound))
      else
        Ok(200, MovieDetail(
          data.id.value, data.title, data.releaseDate,
          EnglishLogo(data),
          ImageUrl(OriginalBase, data.backdropPath),
          ImageUrl(OriginalBase, data.posterPath),
          data.overview, data.genres, Director(data), data.runtime, data.originalLanguage,
          data.voteAverage, data.voteCount,
          Take(CastOf(data), DetailCastSize),
          CrewOf(data),
          data.productionCountries, data.productionCompanies, data.revenue))
  }
}

=== FILE: common.dfy ===
/** Failure-carrying wrappers and small sequence combinators shared by every module. */
module Common {

  /** A value that may be absent: JavaScript's `undefined`/`null` for an optional field. */
  datatype Option<+T> = None | Some(value: T)

  /** The outcome of a store operation that can fail. */
  datatype Result<+T, +E> = Success(value: T) | Failure(error: E)

  /** `Array.prototype.map`. */
  function Map<A, B>(s: seq<A>, f: A -> B): (r: seq<B>)
    ensures |r| == |s|
    ensures forall i :: 0 <= i < |s| ==> r[i] == f(s[i])
  {
    if |s| == 0 then [] else [f(s[0])] + Map(s[1..], f)
  }

  /**
   * `Array.prototype.filter`: the elements satisfying `p`, in their original
   * order. Order and repetitions are pinned down by `FilterAppend` with
   * `FilterOne`: filtering distributes over concatenation and keeps a single
   * element exactly when it satisfies `p`.
   */
  function Filter<T>(s: seq<T>, p: T -> bool): (r: seq<T>)
    ensures |r| <= |s|
    ensures forall i :: 0 <= i < |r| ==> r[i] in s && p(r[i])
    ensures forall i :: 0 <= i < |s| && p(s[i]) ==> s[i] in r
  {
    if |s| == 0 then []
    else if p(s[0]) then [s[0]] + Filter(s[1..], p)
    else Filter(s[1..], p)
  }

  /** `Array.prototype.findIndex`, with `None` for JavaScript's `-1`. */
  function FindIndex<T>(s: seq<T>, p: T -> bool): (r: Option<nat>)
    ensures r.Some? ==> r.value < |s| && p(s[r.value])
    ensures r.Some? ==> forall j :: 0 <= j < r.value ==> !p(s[j])
    ensures r.None? <==> forall j :: 0 <= j < |s| ==> !p(s[j])
  {
    if |s| == 0 then None
    else if p(s[0]) then Some(0)
    else match FindIndex(s[1..], p)
      case None => None
      case Some(i) => Some(i + 1)
  }

  /** `Array.prototype.find`: the first element satisfying `p`. */
  function Find<T>(s: seq<T>, p: T -> bool): (r: Option<T>)
    ensures r.Some? ==> r.value in s && p(r.value)
    ensures r.Some? ==> FindIndex(s, p).Some? && r.value == s[FindIndex(s, p).value]
    ensures r.None? <==> forall j :: 0 <= j < |s| ==> !p(s[j])
  {
    match FindIndex(s, p)
    case None => None
    case Some(i) => Some(s[i])
  }

  /** `Array.prototype.slice(0, n)`. */
  function Take<T>(s: seq<T>, n: nat): (r: seq<T>)
    ensures |r| == if |s| < n then |s| else n
    ensures r <= s
  {
    if |s| <= n then s else s[..n]
  }

  /** Filtering distributes over concatenation. */
  lemma {:induction false} FilterAppend<T>(a: seq<T>, b: seq<T>, p: T -> bool)
    ensures Filter(a + b, p) == Filter(a, p) + Filter(b, p)
  {
    if |a| == 0 {
      assert a + b == b;
    } else {
      assert (a + b)[1..] == a[1..] + b;
      FilterAppend(a[1..], b, p);
    }
  }


  /** Filtering keeps every occurrence of an element that satisfies the predicate and none of any other. */
  lemma {:induction false} FilterCounts<T>(s: seq<T>, p: T -> bool)
    ensures forall x :: multiset(Filter(s, p))[x] == if p(x) then multiset(s)[x] else 0
  {
    if |s| > 0 {
      assert s == [s[0]] + s[1..];
      FilterCounts(s[1..], p);
    }
  }

  /** Filtering one element keeps it exactly when it satisfies the predicate. */
  lemma FilterOne<T>(x: T, p: T -> bool)
    ensures Filter([x], p) == if p(x) then [x] else []
  {
  }

  /** Mapping distributes over concatenation. */
  lemma {:induction false} MapAppend<A, B>(a: seq<A>, b: seq<A>, f: A -> B)
    ensures Map(a + b, f) == Map(a, f) + Map(b, f)
  {
    if |a| == 0 {
      assert a + b == b;
    } else {
      assert (a + b)[1..] == a[1..] + b;
      MapAppend(a[1..], b, f);
    }
  }
}

=== FILE: http.dfy ===
/** The reply a route handler sends: a status code with a JSON body or an `{error}` message. */
module Http {

  datatype Reply<T> = Ok(code: int, value: T) | Err(code: int, message: string)

  /** The message a handler sends for an exception it did not anticipate; the thrown text is not modelled. */
  const UnexpectedError := "unexpected error"
}

=== FILE: js.dfy ===
/**
 * The JavaScript value semantics the handlers depend on: request-body fields
 * are dynamically typed, checked for truthiness (`!x`), converted with
 * `String(x)`/`x.toString()` and, in the prototype routes, read with `parseInt`.
 */
module Js {
  import opened Common
  import opened Text

  /**
   * A JSON request-body field. Numbers are integers here; objects and arrays
   * sent where a scalar is expected are not represented.
   */
  datatype JsValue = Undefined | Null | Bool(b: bool) | Num(n: int) | Str(s: string)

  /**
   * JavaScript truthiness (ToBoolean, section 7.1.2 of ECMA-262):
   * `undefined`, `null`, `false`, `0` and `""` are falsy, every other value
   * here is truthy. `TruthyByText` reads the same table off `String(v)`.
   */
  predicate Truthy(v: JsValue)
    ensures v.Undefined? || v.Null? ==> !Truthy(v)
    ensures v.Bool? ==> (Truthy(v) <==> v.b)
    ensures v.Num? ==> (Truthy(v) <==> v.n != 0)
    ensures v.Str? ==> (Truthy(v) <==> |v.s| > 0)
  {
    match v
    case Undefined => false
    case Null => false
    case Bool(b) => b
    case Num(n) => n != 0
    case Str(s) => s != ""
  }

  /** `String(v)`, which for every value here coincides with `v.toString()` where that exists. */
  function ToJsString(v: JsValue): (r: string)
    ensures v.Str? ==> r == v.s
    ensures Truthy(v) ==> r != ""
  {
    match v
    case Undefined => "undefined"
    case Null => "null"
    case Bool(b) => if b then "true" else "false"
    case Num(n) => IntToString(n)
    case Str(s) => s
  }

  /**
   * Truthiness read off `String(v)`: a string is falsy exactly when it is
   * empty, any other value exactly when it prints as `0`, `false`, `null` or
   * `undefined`.
   */
  lemma TruthyByText(v: JsValue)
    ensures v.Str? ==> (Truthy(v) <==> ToJsString(v) != "")
    ensures !v.Str? ==> (Truthy(v) <==> ToJsString(v) !in ["0", "false", "null", "undefined"])
  {
    if v.Num? {
      var s := IntToString(v.n);
      if v.n == 0 {
        assert s == "0";
      } else {
        assert s[0] != '0' && (s[0] == '-' || IsDigit(s[0]));
        assert s != "0" && s != "false" && s != "null" && s != "undefined";
      }
    }
  }

  /** The length of the longest prefix of `s` made of digits of base `radix`. */
  function DigitRun(s: string, radix: nat): (k: nat)
    ensures k <= |s|
    ensures forall i :: 0 <= i < k ==> DigitValue(s[i]) < radix
    ensures k < |s| ==> DigitValue(s[k]) >= radix
  {
    if |s| > 0 && DigitValue(s[0]) < radix then 1 + DigitRun(s[1..], radix) else 0
  }

  /** The unsigned part of `parseInt` after the sign: an optional `0x`/`0X` selects base 16. */
  function ParseUnsigned(s: string): (r: Option<nat>)
    ensures r.Some? ==> |s| > 0 && IsDigit(s[0])
  {
    var hex := |s| >= 2 && s[0] == '0' && (s[1] == 'x' || s[1] == 'X');
    var radix := if hex then 16 else 10;
    var body := if hex then s[2..] else s;
    var k := DigitRun(body, radix);
    if k == 0 then None else Some(DigitsValue(body[..k], radix))
  }

  /** `parseInt` once leading white space is gone: an optional sign, then the unsigned part. */
  function ParseSigned(t: string): (r: Option<int>)
    ensures r.Some? ==> |t| > 0 && (IsDigit(t[0]) || ((t[0] == '-' || t[0] == '+') && |t| > 1 && IsDigit(t[1])))
    ensures r.Some? && r.value < 0 ==> t[0] == '-'
  {
    if |t| > 0 && t[0] == '-' then
      match ParseUnsigned(t[1..])
      case None => None
      case Some(n) => Some(-(n as int))
    else
      match ParseUnsigned(if |t| > 0 && t[0] == '+' then t[1..] else t)
      case None => None
      case Some(n) => Some(n)
  }

  /**
   * `parseInt(s)` with no radix argument: leading white space is skipped, a
   * sign is read, then the longest run of digits; `None` stands for `NaN`.
   */
  function ParseInt(s: string): (r: Option<int>)
    ensures r.Some? ==> var t := TrimStart(s);
      |t| > 0 && (IsDigit(t[0]) || ((t[0] == '-' || t[0] == '+') && |t| > 1 && IsDigit(t[1])))
    ensures r.Some? && r.value < 0 ==> TrimStart(s)[0] == '-'
  {
    ParseSigned(TrimStart(s))
  }

  /** A numeral followed by a character that is no decimal digit: the digit run stops exactly there. */
  lemma DigitRunStops(d: string, tail: string)
    requires forall i :: 0 <= i < |d| ==> IsDigit(d[i])
    requires |tail| > 0 ==> DigitValue(tail[0]) >= 10
    ensures DigitRun(d + tail, 10) == |d|
  {
    var s := d + tail;
    assert forall i :: 0 <= i < |d| ==> DigitValue(s[i]) < 10 by {
      forall i | 0 <= i < |d| ensures DigitValue(s[i]) < 10 {
        assert s[i] == d[i];
      }
    }
    if |tail| > 0 {
      assert s[|d|] == tail[0];
    }
  }

  /** The unsigned part reads a rendered number followed by anything that is not a digit. */
  lemma ParseUnsignedDecimal(n: nat, tail: string)
    requires |tail| > 0 ==> DigitValue(tail[0]) >= 10
    requires n == 0 && |tail| > 0 ==> tail[0] != 'x' && tail[0] != 'X'
    ensures ParseUnsigned(NatToString(n) + tail) == Some(n)
  {
    var d := NatToString(n);
    var s := d + tail;
    assert s[0] == d[0];
    assert !(|s| >= 2 && s[0] == '0' && (s[1] == 'x' || s[1] == 'X')) by {
      if |d| == 1 && |s| >= 2 {
        assert s[1] == tail[0];
      } else if |d| > 1 {
        assert s[1] == d[1];
      }
    }
    DigitRunStops(d, tail);
    assert s[..|d|] == d;
    NatToStringValue(n);
  }

  lemma ParseIntNegative(i: int)
    requires i < 0
    ensures ParseInt(IntToString(i)) == Some(i)
  {
    var s := IntToString(i);
    assert s[1..] == NatToString(-i) + "";
    ParseUnsignedDecimal(-i, "");
    ParseIntMinus(s, -i);
  }

  /** Text that starts with `-` reads as the negated unsigned part after it. */
  lemma ParseIntMinus(s: string, n: nat)
    requires |s| > 0 && s[0] == '-' && ParseUnsigned(s[1..]) == Some(n)
    ensures ParseInt(s) == Some(-(n as int))
  {
    ParseSignedMinus(s, n);
    TrimStartUntouched(s);
  }

  /** `parseInt` reads back every integer `toString` writes. */
  lemma ParseIntRoundTrip(i: int)
    ensures ParseInt(IntToString(i)) == Some(i)
  {
    if i < 0 {
      ParseIntNegative(i);
    } else {
      ParseIntIgnoresTail(i, "");
      assert NatToString(i) + "" == IntToString(i);
    }
  }

  /** `parseInt` ignores whatever follows the digits: `parseInt("12abc")` is 12. */
  lemma ParseIntIgnoresTail(n: nat, tail: string)
    requires |tail| > 0 ==> DigitValue(tail[0]) >= 10
    requires n == 0 && |tail| > 0 ==> tail[0] != 'x' && tail[0] != 'X'
    ensures ParseInt(NatToString(n) + tail) == Some(n)
  {
    var s := NatToString(n) + tail;
    assert s[0] == NatToString(n)[0];
    assert IsDigit(s[0]);
    TrimStartUntouched(s);
    ParseUnsignedDecimal(n, tail);
    ParseSignedDigit(s, n);
  }

  /** Text that starts with a digit has no sign: `parseInt` reads it unsigned. */
  lemma ParseSignedDigit(t: string, n: nat)
    requires |t| > 0 && IsDigit(t[0]) && ParseUnsigned(t) == Some(n)
    ensures ParseSigned(t) == Some(n)
  {
  }

  /** A run of decimal digits, leading zeros allowed, followed by a non-digit reads as the run's value. */
  lemma UnsignedDigits(d: string, tail: string)
    requires |d| > 0 && forall i :: 0 <= i < |d| ==> IsDigit(d[i])
    requires |tail| > 0 ==> DigitValue(tail[0]) >= 10
    requires |d| == 1 && d[0] == '0' && |tail| > 0 ==> tail[0] != 'x' && tail[0] != 'X'
    ensures ParseUnsigned(d + tail) == Some(DigitsValue(d, 10))
  {
    var s := d + tail;
    assert s[0] == d[0];
    assert !(|s| >= 2 && s[0] == '0' && (s[1] == 'x' || s[1] == 'X')) by {
      if |d| == 1 && |s| >= 2 {
        assert s[1] == tail[0];
      } else if |d| > 1 {
        assert s[1] == d[1];
      }
    }
    DigitRunStops(d, tail);
    assert s[..|d|] == d;
  }

  /** Text that starts with `-` reads as the negated unsigned part after it. */
  lemma ParseSignedMinus(t: string, n: nat)
    requires |t| > 0 && t[0] == '-' && ParseUnsigned(t[1..]) == Some(n)
    ensures ParseSigned(t) == Some(-(n as int))
  {
  }

  /** Text that starts with `+` reads as the unsigned part after it. */
  lemma ParseSignedPlus(t: string, n: nat)
    requires |t| > 0 && t[0] == '+' && ParseUnsigned(t[1..]) == Some(n)
    ensures ParseSigned(t) == Some(n)
  {
  }

  /** An optional sign in front of text that reads unsigned: the value, negated after `-`. */
  lemma SignedText(sign: string, u: string, n: nat)
    requires |sign| <= 1 && (|sign| == 1 ==> sign[0] == '-' || sign[0] == '+')
    requires ParseUnsigned(u) == Some(n)
    ensures ParseSigned(sign + u) == Some(if |sign| == 1 && sign[0] == '-' then -(n as int) else n)
  {
    var t := sign + u;
    if |sign| == 0 {
      assert t == u;
      ParseSignedDigit(t, n);
    } else {
      assert t[1..] == u;
      if sign[0] == '-' {
        ParseSignedMinus(t, n);
      } else {
        ParseSignedPlus(t, n);
      }
    }
  }

  /**
   * `parseInt` of white space, an optional sign, decimal digits and a tail
   * that does not start with a digit: the digits' value, negated after `-`.
   * So `parseInt(" +007x")` is 7, and `parseInt("-12")` is -12.
   */
  lemma ParseIntDigits(ws: string, sign: string, d: string, tail: string, n: nat)
    requires forall i :: 0 <= i < |ws| ==> IsJsSpace(ws[i])
    requires |sign| <= 1 && (|sign| == 1 ==> sign[0] == '-' || sign[0] == '+')
    requires |d| > 0 && (forall i :: 0 <= i < |d| ==> IsDigit(d[i])) && n == DigitsValue(d, 10)
    requires |tail| > 0 ==> DigitValue(tail[0]) >= 10
    requires |d| == 1 && d[0] == '0' && |tail| > 0 ==> tail[0] != 'x' && tail[0] != 'X'
    ensures ParseInt(ws + sign + d + tail) == Some(if |sign| == 1 && sign[0] == '-' then -(n as int) else n)
  {
    UnsignedDigits(d, tail);
    ParseIntText(ws, sign, d, tail, n);
  }

  /** White space, an optional sign, then text that reads unsigned, as four pieces. */
  lemma ParseIntText(ws: string, sign: string, d: string, tail: string, n: nat)
    requires forall i :: 0 <= i < |ws| ==> IsJsSpace(ws[i])
    requires |sign| <= 1 && (|sign| == 1 ==> sign[0] == '-' || sign[0] == '+')
    requires ParseUnsigned(d + tail) == Some(n)
    ensures ParseInt(ws + sign + d + tail) == Some(if |sign| == 1 && sign[0] == '-' then -(n as int) else n)
  {
    ParseIntSigned(ws, sign, d + tail, n);
    Regroup(ws, sign, d, tail);
  }

  /** White space, an optional sign, then text that reads unsigned: the value, negated after `-`. */
  lemma ParseIntSigned(ws: string, sign: string, u: string, n: nat)
    requires forall i :: 0 <= i < |ws| ==> IsJsSpace(ws[i])
    requires |sign| <= 1 && (|sign| == 1 ==> sign[0] == '-' || sign[0] == '+')
    requires ParseUnsigned(u) == Some(n)
    ensures ParseInt(ws + (sign + u)) == Some(if |sign| == 1 && sign[0] == '-' then -(n as int) else n)
  {
    SignedText(sign, u, n);
    ParseIntAfterSpace(ws, sign + u);
  }

  /** A run of digits of base `radix` followed by a character that is none: the run stops exactly there. */
  lemma RadixRunStops(d: string, tail: string, radix: nat)
    requires forall i :: 0 <= i < |d| ==> DigitValue(d[i]) < radix
    requires |tail| > 0 ==> DigitValue(tail[0]) >= radix
    ensures DigitRun(d + tail, radix) == |d|
    decreases |d|
  {
    var s := d + tail;
    if |d| == 0 {
      assert s == tail;
    } else {
      assert s[0] == d[0] && s[1..] == d[1..] + tail;
      RadixRunStops(d[1..], tail, radix);
    }
  }

  /** `0x` or `0X`: the prefix that makes `parseInt` read base 16. */
  predicate HexPrefix(p: string)
  {
    |p| == 2 && p[0] == '0' && (p[1] == 'x' || p[1] == 'X')
  }

  /**
   * `0x` or `0X`, then hexadecimal digits and a tail that does not start with
   * one: the digits read in base 16, and with no digit at all nothing is read.
   */
  lemma HexDigits(p: string, d: string, tail: string)
    requires HexPrefix(p)
    requires forall i :: 0 <= i < |d| ==> DigitValue(d[i]) < 16
    requires |tail| > 0 ==> DigitValue(tail[0]) >= 16
    ensures ParseUnsigned(p + (d + tail)) == if |d| == 0 then None else Some(DigitsValue(d, 16))
  {
    var s := p + (d + tail);
    assert s[0] == '0' && s[1] == p[1];
    assert s[2..] == d + tail;
    RadixRunStops(d, tail, 16);
    assert (d + tail)[..|d|] == d;
  }

  /**
   * `parseInt` of white space, an optional sign, `0x` and hexadecimal digits:
   * the digits' value in base 16, negated after `-`. So `parseInt("0x1F")` is 31.
   */
  lemma ParseIntHex(ws: string, sign: string, p: string, d: string, tail: string, n: nat)
    requires forall i :: 0 <= i < |ws| ==> IsJsSpace(ws[i])
    requires |sign| <= 1 && (|sign| == 1 ==> sign[0] == '-' || sign[0] == '+')
    requires HexPrefix(p)
    requires |d| > 0 && (forall i :: 0 <= i < |d| ==> DigitValue(d[i]) < 16) && n == DigitsValue(d, 16)
    requires |tail| > 0 ==> DigitValue(tail[0]) >= 16
    ensures ParseInt(ws + sign + p + (d + tail)) == Some(if |sign| == 1 && sign[0] == '-' then -(n as int) else n)
  {
    HexDigits(p, d, tail);
    ParseIntText(ws, sign, p, d + tail, n);
  }

  /** `0x` with no hexadecimal digit after it is not a number: `parseInt("0x")` is `NaN`. */
  lemma ParseIntHexEmpty(ws: string, sign: string, p: string, tail: string)
    requires forall i :: 0 <= i < |ws| ==> IsJsSpace(ws[i])
    requires |sign| <= 1 && (|sign| == 1 ==> sign[0] == '-' || sign[0] == '+')
    requires HexPrefix(p)
    requires |tail| > 0 ==> DigitValue(tail[0]) >= 16
    ensures ParseInt(ws + (sign + p + tail)) == None
  {
    var u := p + tail;
    assert ParseUnsigned(u) == None by {
      HexDigits(p, "", tail);
      assert "" + tail == tail;
    }
    var t := sign + p + tail;
    assert t == sign + u;
    assert ParseSigned(t) == None by {
      if |sign| == 1 {
        assert t[1..] == u;
      } else {
        assert t == u;
      }
    }
    assert TrimStart(ws + t) == t by {
      assert t[0] == '0' || t[0] == sign[0];
      TrimStartSkips(ws, t);
    }
  }

  lemma Regroup(a: string, b: string, c: string, e: string)
    ensures a + b + c + e == a + (b + (c + e))
  {
  }

  /** `parseInt` skips leading white space in front of text that reads as a number. */
  lemma ParseIntAfterSpace(ws: string, t: string)
    requires forall i :: 0 <= i < |ws| ==> IsJsSpace(ws[i])
    requires ParseSigned(t).Some?
    ensures ParseInt(ws + t) == ParseSigned(t)
  {
    TrimStartSkips(ws, t);
  }
}

=== FILE: movie_schema.dfy ===
/**
 * The saved-movie collection (backend/models/Movie.js): the record shape, the
 * required fields and defaults mongoose applies when a document is created,
 * and the unique compound index on `(userId, movieId)`. The collection is a
 * sequence in insertion order plus the counter that hands out `_id`s.
 */
module MovieSchema {
  import opened Common
  import opened Tmdb

  /** The string fields the add route fills in from the catalog reply. */
  datatype MovieInfo = MovieInfo(
    year: string,
    rated: string,
    released: string,
    runtime: string,
    genre: string,
    director: string,
    writer: string,
    actors: string,
    plot: string,
    language: string,
    country: string,
    awards: string,
    poster: string,
    ratings: seq<string>,
    metascore: string,
    voteAverage: string,
    voteCount: string,
    kind: string,
    boxOffice: string,
    production: string)

  /**
   * A stored document. `id` is the store-assigned `_id`; `movieId` is the
   * catalog's id as text, a different thing.
   */
  datatype SavedMovie = SavedMovie(
    id: nat,
    title: string,
    movieId: string,
    userId: string,
    watchedDate: int,
    info: MovieInfo,
    fullTmdbData: DetailPayload)

  /** The object handed to `Movie.create`: any path may be left out. */
  datatype MovieDraft = MovieDraft(
    title: Option<string>,
    movieId: Option<string>,
    userId: Option<string>,
    watchedDate: Option<int>,
    info: MovieInfo,
    fullTmdbData: Option<DetailPayload>)

  /** Errors the store raises: failed validation, a unique-index violation (code 11000), an unreadable `_id`. */
  datatype DbError = ValidationError | DuplicateKey | CastError

  datatype MovieStore = MovieStore(records: seq<SavedMovie>, nextId: nat)

  /** Two records for the same user and the same catalog movie. */
  predicate SamePair(a: SavedMovie, b: SavedMovie)
  {
    a.userId == b.userId && a.movieId == b.movieId
  }

  /** What every stored collection satisfies: required fields set, `_id`s fresh and distinct, the unique index. */
  predicate Invariant(st: MovieStore)
  {
    && (forall i :: 0 <= i < |st.records| ==>
          && st.records[i].title != ""
          && st.records[i].movieId != ""
          && st.records[i].userId != ""
          && st.records[i].id < st.nextId)
    && (forall i, j :: 0 <= i < j < |st.records| ==>
          st.records[i].id != st.records[j].id && !SamePair(st.records[i], st.records[j]))
  }

  function Empty(): (st: MovieStore)
    ensures Invariant(st)
  {
    MovieStore([], 0)
  }

  /**
   * Document construction and validation: `title`, `movieId` and `userId`
   * are required (absent or empty text fails); `watchedDate` defaults to the
   * creation time and `fullTmdbData` to `{}`.
   */
  function Build(d: MovieDraft, id: nat, now: int): (r: Result<SavedMovie, DbError>)
    ensures r.Success? <==> Present(d.title) && Present(d.movieId) && Present(d.userId)
    ensures r.Failure? ==> r.error == ValidationError
    ensures r.Success? ==> && Some(r.value.title) == d.title
                           && Some(r.value.movieId) == d.movieId
                           && Some(r.value.userId) == d.userId
                           && r.value.id == id
                           && r.value.info == d.info
    ensures r.Success? && d.watchedDate.None? ==> r.value.watchedDate == now
    ensures r.Success? && d.watchedDate.Some? ==> r.value.watchedDate == d.watchedDate.value
    ensures r.Success? && d.fullTmdbData.None? ==> r.value.fullTmdbData == EmptyPayload()
    ensures r.Success? && d.fullTmdbData.Some? ==> r.value.fullTmdbData == d.fullTmdbData.value
  {
    if !(Present(d.title) && Present(d.movieId) && Present(d.userId)) then Failure(ValidationError)
    else
      Success(SavedMovie(
        id, d.title.value, d.movieId.value, d.userId.value,
        if d.watchedDate.Some? then d.watchedDate.value else now,
        d.info,
        if d.fullTmdbData.Some? then d.fullTmdbData.value else EmptyPayload()))
  }

  /** `Movie.find({userId})`: the user's records, in store order. */
  function FindByUser(st: MovieStore, userId: string): (r: seq<SavedMovie>)
    ensures forall i :: 0 <= i < |r| ==> r[i] in st.records && r[i].userId == userId
    ensures forall i :: 0 <= i < |st.records| && st.records[i].userId == userId ==> st.records[i] in r
    ensures forall m :: multiset(r)[m] == if m.userId == userId then multiset(st.records)[m] else 0
  {
    FilterCounts(st.records, (m: SavedMovie) => m.userId == userId);
    Filter(st.records, (m: SavedMovie) => m.userId == userId)
  }

  /** `Movie.findOne({userId, movieId})`. */
  function FindOne(st: MovieStore, userId: string, movieId: string): (r: Option<SavedMovie>)
    ensures r.Some? ==> r.value in st.records && r.value.userId == userId && r.value.movieId == movieId
    ensures r.None? <==> forall i :: 0 <= i < |st.records| ==> !(st.records[i].userId == userId && st.records[i].movieId == movieId)
  {
    Find(st.records, (m: SavedMovie) => m.userId == userId && m.movieId == movieId)
  }

  /**
   * `Movie.create`: validation first, then the unique index, then the insert
   * under a fresh `_id`. An accepted insert keeps the collection's invariant.
   */
  function Create(st: MovieStore, d: MovieDraft, now: int): (r: Result<(MovieStore, SavedMovie), DbError>)
    ensures r.Failure? ==> r.error != CastError
    ensures r.Failure? && r.error == ValidationError <==> Build(d, st.nextId, now).Failure?
    ensures r.Success? <==> Build(d, st.nextId, now).Success? && FindOne(st, d.userId.value, d.movieId.value).None?
    ensures r.Failure? && r.error == DuplicateKey <==>
      Build(d, st.nextId, now).Success? && FindOne(st, d.userId.value, d.movieId.value).Some?
    ensures r.Success? ==> && Build(d, st.nextId, now) == Success(r.value.1)
                           && r.value.0 == MovieStore(st.records + [r.value.1], st.nextId + 1)
    ensures r.Success? && Invariant(st) ==> Invariant(r.value.0)
  {
    match Build(d, st.nextId, now)
    case Failure(e) => Failure(e)
    case Success(m) =>
      if FindOne(st, m.userId, m.movieId).Some? then Failure(DuplicateKey)
      else
        var st' := MovieStore(st.records + [m], st.nextId + 1);
        assert forall i :: 0 <= i < |st.records| ==> st'.records[i] == st.records[i];
        Success((st', m))
  }

  /** Dropping one record keeps the collection's invariant. */
  lemma RemovePreservesInvariant(st: MovieStore, k: nat)
    requires Invariant(st) && k < |st.records|
    ensures Invariant(MovieStore(st.records[..k] + st.records[k + 1..], st.nextId))
  {
    var rs := st.records[..k] + st.records[k + 1..];
    assert forall i :: 0 <= i < |rs| ==> rs[i] == st.records[if i < k then i else i + 1];
  }

  /**
   * `Movie.findOneAndDelete({_id, userId})`: removes the record with that
   * `_id` only when `userId` owns it; otherwise nothing changes.
   */
  function FindOneAndDelete(st: MovieStore, id: nat, userId: string): (r: (Option<SavedMovie>, MovieStore))
    ensures r.0.None? <==> forall i :: 0 <= i < |st.records| ==> !(st.records[i].id == id && st.records[i].userId == userId)
    ensures r.0.None? ==> r.1 == st
    ensures r.0.Some? ==> exists k :: && 0 <= k < |st.records|
                                      && st.records[k] == r.0.value
                                      && r.1 == MovieStore(st.records[..k] + st.records[k + 1..], st.nextId)
    ensures r.0.Some? ==> r.0.value.id == id && r.0.value.userId == userId
    ensures Invariant(st) ==> Invariant(r.1)
  {
    match FindIndex(st.records, (m: SavedMovie) => m.id == id && m.userId == userId)
    case None => (None, st)
    case Some(k) =>
      var st' := MovieStore(st.records[..k] + st.records[k + 1..], st.nextId);
      assert Invariant(st) ==> Invariant(st') by {
        if Invariant(st) { RemovePreservesInvariant(st, k); }
      }
      (Some(st.records[k]), st')
  }

  /** The unique index: at most one record per `(userId, movieId)` pair. */
  lemma AtMostOnePerPair(st: MovieStore, userId: string, movieId: string, i: int, j: int)
    requires Invariant(st)
    requires 0 <= i < |st.records| && 0 <= j < |st.records|
    requires st.records[i].userId == userId && st.records[i].movieId == movieId
    requires st.records[j].userId == userId && st.records[j].movieId == movieId
    ensures i == j
  {
  }
}

=== FILE: proto_movies.dfy ===
/**
 * The superseded in-memory prototype of the movie routes
 * (Routes/movieRoutes.js): a list of `{id, title}` objects and the
 * `moviesId` counter that numbers them, with `GET /`, `GET /:id`, `POST /`,
 * `DELETE /` (the id travels in the body) and `PUT /:id`.
 */
module ProtoMovies {
  import opened Common
  import opened Text
  import opened Js
  import opened Http

  const MovieNotFound := "Movie not found"
  const EmptyBody := "Empty Json body"
  const InvalidTitle := "Invalid movie title"

  /** A listed movie. The title is whatever JSON value a `PUT` last set. */
  datatype Movie = Movie(id: nat, title: JsValue)

  /** A parsed JSON request body, reduced to the fields the routes read; an absent field is `undefined`. */
  datatype Body = Body(id: JsValue, title: JsValue)

  /** The module-level `movies` array and the `moviesId` counter. */
  datatype State = State(movies: seq<Movie>, counter: nat)

  /** Ids are strictly increasing along the list and below the counter, hence unique and never reissued. */
  ghost predicate Invariant(st: State)
  {
    && Increasing(st.movies)
    && (forall i :: 0 <= i < |st.movies| ==> st.movies[i].id < st.counter)
  }

  /** Ids strictly increase along the list. */
  ghost predicate Increasing(ms: seq<Movie>)
  {
    forall i, j :: 0 <= i < j < |ms| ==> ms[i].id < ms[j].id
  }

  /** `movies.push({id: moviesId++, title})`. */
  function Push(st: State, title: JsValue): (r: State)
    ensures r.movies == st.movies + [Movie(st.counter, title)] && r.counter == st.counter + 1
    ensures Invariant(st) ==> Invariant(r)
  {
    State(st.movies + [Movie(st.counter, title)], st.counter + 1)
  }

  /** The state at module load: five movies pushed onto an empty list with the counter starting at 1. */
  function Initial(): (st: State)
    ensures |st.movies| == 5 && st.counter == 6
    ensures forall i :: 0 <= i < 5 ==> st.movies[i].id == i + 1
    ensures Invariant(st)
  {
    var s0 := State([], 1);
    Push(Push(Push(Push(Push(s0, Str(" Movie A")), Str(" Movie B")), Str(" Movie C")), Str(" Movie D")), Str(" Movie E"))
  }

  /** Whether a movie's id is `===` to a `parseInt` result; `NaN` (`None`) equals nothing. */
  predicate HasId(m: Movie, key: Option<int>)
  {
    key == Some(m.id as int)
  }

  /** `GET /`: the whole list. */
  function List(st: State): (r: Reply<seq<Movie>>)
    ensures r.Ok? && r.code == 200 && r.value == st.movies
  {
    Ok(200, st.movies)
  }

  /** `GET /:id`: the first movie whose id is `parseInt` of the path parameter, or a 404. */
  function Get(st: State, param: string): (r: Reply<Movie>)
    ensures r.Ok? <==> exists i :: 0 <= i < |st.movies| && HasId(st.movies[i], ParseInt(param))
    ensures r.Ok? ==> r.code == 200 && r.value in st.movies && HasId(r.value, ParseInt(param))
    ensures r.Err? ==> r == Err(404, MovieNotFound)
  {
    var key := ParseInt(param);
    match Find(st.movies, (m: Movie) => HasId(m, key))
    case None => Err(404, MovieNotFound)
    case Some(m) => Ok(200, m)
  }

  /** `POST /`: a missing body or a title that is not a non-empty string is a 400; otherwise the title is pushed. */
  function Post(st: State, body: Option<Body>): (r: (Reply<seq<Movie>>, State))
    ensures body.None? ==> r == (Err(400, EmptyBody), st)
    ensures r.0.Ok? <==> body.Some? && body.value.title.Str? && body.value.title.s != ""
    ensures body.Some? && !r.0.Ok? ==> r == (Err(400, InvalidTitle), st)
    ensures r.0.Ok? ==> && r.1.movies == st.movies + [Movie(st.counter, body.value.title)]
                        && r.1.counter == st.counter + 1
                        && r.0 == Ok(200, r.1.movies)
    ensures Invariant(st) ==> Invariant(r.1)
  {
    match body
    case None => (Err(400, EmptyBody), st)
    case Some(b) =>
      if !b.title.Str? || b.title.s == "" then (Err(400, InvalidTitle), st)
      else
        var st' := Push(st, b.title);
        (Ok(200, st'.movies), st')
  }

  /** `movies.filter(movie => movie.id !== key)`: the movies whose id is not `key`, in their original order. */
  function Remove(ms: seq<Movie>, key: Option<int>): (r: seq<Movie>)
    ensures |r| <= |ms|
    ensures forall i :: 0 <= i < |r| ==> r[i] in ms && !HasId(r[i], key)
    ensures forall i :: 0 <= i < |ms| && !HasId(ms[i], key) ==> ms[i] in r
  {
    if |ms| == 0 then []
    else if HasId(ms[0], key) then Remove(ms[1..], key)
    else [ms[0]] + Remove(ms[1..], key)
  }

  /** Removal keeps the remaining ids in their strictly increasing order. */
  lemma {:induction false} RemoveKeepsOrder(ms: seq<Movie>, key: Option<int>)
    requires Increasing(ms)
    ensures Increasing(Remove(ms, key))
  {
    if |ms| > 0 {
      RemoveKeepsOrder(ms[1..], key);
      if !HasId(ms[0], key) {
        var tail := Remove(ms[1..], key);
        forall k | 0 <= k < |tail|
          ensures ms[0].id < tail[k].id
        {
          var j :| 0 <= j < |ms[1..]| && ms[1..][j] == tail[k];
          assert ms[j + 1] == tail[k];
        }
        ConsIncreasing(ms[0], tail);
      }
    }
  }

  /** A movie with a smaller id than every movie of an increasing list can head it. */
  lemma ConsIncreasing(m: Movie, tail: seq<Movie>)
    requires Increasing(tail) && forall k :: 0 <= k < |tail| ==> m.id < tail[k].id
    ensures Increasing([m] + tail)
  {
    var r := [m] + tail;
    forall i, j | 0 <= i < j < |r|
      ensures r[i].id < r[j].id
    {
      assert r[j] == tail[j - 1];
      if i > 0 {
        assert r[i] == tail[i - 1];
      }
    }
  }

  /** Removing an id no movie has changes nothing. */
  lemma {:induction false} RemoveAbsent(ms: seq<Movie>, key: Option<int>)
    requires forall i :: 0 <= i < |ms| ==> !HasId(ms[i], key)
    ensures Remove(ms, key) == ms
  {
    if |ms| > 0 {
      RemoveAbsent(ms[1..], key);
      assert [ms[0]] + ms[1..] == ms;
    }
  }

  /**
   * `DELETE /`: every movie whose id is `parseInt(String(body.id))` is
   * filtered out and the rest are kept in order. Reading `id` from a missing
   * body throws, which Express answers with a 500.
   */
  function Delete(st: State, body: Option<Body>): (r: (Reply<seq<Movie>>, State))
    ensures body.None? ==> r == (Err(500, UnexpectedError), st)
    ensures body.Some? ==> r.0 == Ok(200, r.1.movies) && r.1.counter == st.counter
    ensures body.Some? ==> var key := ParseInt(ToJsString(body.value.id));
      && (forall i :: 0 <= i < |r.1.movies| ==> r.1.movies[i] in st.movies && !HasId(r.1.movies[i], key))
      && (forall i :: 0 <= i < |st.movies| && !HasId(st.movies[i], key) ==> st.movies[i] in r.1.movies)
      && ((forall i :: 0 <= i < |st.movies| ==> !HasId(st.movies[i], key)) ==> r.1 == st)
    ensures Invariant(st) ==> Invariant(r.1)
  {
    match body
    case None => (Err(500, UnexpectedError), st)
    case Some(b) =>
      var key := ParseInt(ToJsString(b.id));
      var movies := Remove(st.movies, key);
      assert Invariant(st) ==> Invariant(State(movies, st.counter)) by {
        if Invariant(st) {
          RemoveKeepsOrder(st.movies, key);
        }
      }
      assert (forall i :: 0 <= i < |st.movies| ==> !HasId(st.movies[i], key)) ==> movies == st.movies by {
        if forall i :: 0 <= i < |st.movies| ==> !HasId(st.movies[i], key) {
          RemoveAbsent(st.movies, key);
        }
      }
      (Ok(200, movies), State(movies, st.counter))
  }

  /**
   * `PUT /:id`: a missing body is a 400; otherwise the first movie whose id
   * is `parseInt` of the path parameter has its title replaced by
   * `body.title`, or the reply is a 404.
   */
  function Put(st: State, param: string, body: Option<Body>): (r: (Reply<seq<Movie>>, State))
    ensures body.None? ==> r == (Err(400, EmptyBody), st)
    ensures r.0.Ok? <==> body.Some? && exists i :: 0 <= i < |st.movies| && HasId(st.movies[i], ParseInt(param))
    ensures body.Some? && !r.0.Ok? ==> r == (Err(404, MovieNotFound), st)
    ensures r.0.Ok? ==> && r.0 == Ok(200, r.1.movies)
                        && r.1.counter == st.counter
                        && |r.1.movies| == |st.movies|
                        && (forall i :: 0 <= i < |st.movies| ==> r.1.movies[i].id == st.movies[i].id)
                        && exists i :: && 0 <= i < |st.movies| && HasId(st.movies[i], ParseInt(param))
                                       && r.1.movies[i].title == body.value.title
                                       && forall j :: 0 <= j < |st.movies| && j != i ==> r.1.movies[j] == st.movies[j]
    ensures Invariant(st) ==> Invariant(r.1)
  {
    match body
    case None => (Err(400, EmptyBody), st)
    case Some(b) =>
      var key := ParseInt(param);
      match FindIndex(st.movies, (m: Movie) => HasId(m, key))
      case None => (Err(404, MovieNotFound), st)
      case Some(i) =>
        var movies := st.movies[i := Movie(st.movies[i].id, b.title)];
        (Ok(200, movies), State(movies, st.counter))
  }

  /** A freshly posted movie is found by `GET /:id` under the counter's value, written in decimal. */
  lemma PostThenGet(st: State, title: string)
    requires Invariant(st) && title != ""
    ensures var (_, st') := Post(st, Some(Body(Undefined, Str(title))));
      Get(st', IntToString(st.counter)) == Ok(200, Movie(st.counter, Str(title)))
  {
    var (_, st') := Post(st, Some(Body(Undefined, Str(title))));
    ParseIntRoundTrip(st.counter);
    var k := |st.movies|;
    assert HasId(st'.movies[k], ParseInt(IntToString(st.counter)));
    var r := Get(st', IntToString(st.counter));
    assert r.Ok?;
    UniqueId(st', r.value, st'.movies[k]);
  }

  /** Under the invariant, two listed movies with the same id are the same movie. */
  lemma UniqueId(st: State, a: Movie, b: Movie)
    requires Invariant(st) && a in st.movies && b in st.movies && a.id == b.id
    ensures a == b
  {
    var i :| 0 <= i < |st.movies| && st.movies[i] == a;
    var j :| 0 <= j < |st.movies| && st.movies[j] == b;
    assert !(i < j) && !(j < i);
  }

  /** After a successful `PUT`, `GET` on the same parameter finds the movie with its new title. */
  lemma PutThenGet(st: State, param: string, title: JsValue)
    requires Invariant(st)
    requires exists i :: 0 <= i < |st.movies| && HasId(st.movies[i], ParseInt(param))
    ensures var (_, st') := Put(st, param, Some(Body(Undefined, title)));
      && Get(st', param).Ok?
      && Get(st', param).value.title == title
      && HasId(Get(st', param).value, ParseInt(param))
  {
    var (_, st') := Put(st, param, Some(Body(Undefined, title)));
    var i :| && 0 <= i < |st.movies| && HasId(st.movies[i], ParseInt(param))
             && st'.movies[i].title == title
             && forall j :: 0 <= j < |st.movies| && j != i ==> st'.movies[j] == st.movies[j];
    var r := Get(st', param);
    assert HasId(st'.movies[i], ParseInt(param));
    assert r.Ok?;
    UniqueId(st', r.value, st'.movies[i]);
  }

  /** After a `DELETE` with a decimal id, `GET` on that id is a 404. */
  lemma DeleteThenGet(st: State, id: nat)
    ensures var (_, st') := Delete(st, Some(Body(Num(id), Undefined)));
      Get(st', IntToString(id)) == Err(404, MovieNotFound)
  {
    var (_, st') := Delete(st, Some(Body(Num(id), Undefined)));
    assert ToJsString(Num(id)) == IntToString(id);
    ParseIntRoundTrip(id);
    assert forall i :: 0 <= i < |st'.movies| ==> !HasId(st'.movies[i], ParseInt(IntToString(id)));
  }
}

=== FILE: proto_users.dfy ===
/**
 * The superseded prototype of the account routes (Routes/userRoutes.js):
 * users are stored with their plaintext password, the duplicate check is an
 * exact match on the email as sent, and a login only answers whether the
 * password is equal to the stored one. The `User` model it imports is not
 * part of this model; its `create` is taken to accept every record.
 */
module ProtoUsers {
  import opened Common
  import opened Js
  import opened Http

  const FieldsRequired := "All fields are required"
  /** The duplicate-email message, spelled as the prototype spells it. */
  const EmailExists := "Email alreayd exist"
  const UserCreated := "User created successfully"
  const CredentialsRequired := "Email and password are required"
  const UserNotFound := "User not found"
  const LoginSuccessful := "Login successful"
  const LoginMismatch := "login credintials does not match."

  /** A stored user: the three request fields exactly as sent. */
  datatype PlainUser = PlainUser(username: JsValue, email: JsValue, password: JsValue)

  /** `User.findOne({email})`: the first user whose email is the given value. */
  function FindByEmail(users: seq<PlainUser>, email: JsValue): (r: Option<PlainUser>)
    ensures r.Some? ==> r.value in users && r.value.email == email
    ensures r.None? <==> forall i :: 0 <= i < |users| ==> users[i].email != email
  {
    Find(users, (u: PlainUser) => u.email == email)
  }

  /** No two stored users share an email. */
  ghost predicate Invariant(users: seq<PlainUser>)
  {
    forall i, j :: 0 <= i < j < |users| ==> users[i].email != users[j].email
  }

  /**
   * `POST /signup`: a missing body throws and is a 500; a falsy field is a
   * 400; an email already stored, compared exactly, is a 400; otherwise the
   * user is appended as sent and echoed back with a 201.
   */
  function Signup(users: seq<PlainUser>, body: Option<PlainUser>): (r: (Reply<PlainUser>, seq<PlainUser>))
    ensures body.None? ==> r == (Err(500, UnexpectedError), users)
    ensures body.Some? && (!Truthy(body.value.username) || !Truthy(body.value.email) || !Truthy(body.value.password))
            ==> r == (Err(400, FieldsRequired), users)
    ensures r.0.Ok? <==> && body.Some?
                         && Truthy(body.value.username) && Truthy(body.value.email) && Truthy(body.value.password)
                         && FindByEmail(users, body.value.email).None?
    ensures r.0.Ok? ==> r == (Ok(201, body.value), users + [body.value])
    ensures (&& body.Some? && Truthy(body.value.username) && Truthy(body.value.email) && Truthy(body.value.password)
             && FindByEmail(users, body.value.email).Some?)
            ==> r == (Err(400, EmailExists), users)
    ensures body.Some? && r.0.Err? ==> r.0.code == 400
    ensures r.0.Err? ==> r.1 == users
    ensures Invariant(users) ==> Invariant(r.1)
  {
    match body
    case None => (Err(500, UnexpectedError), users)
    case Some(u) =>
      if !Truthy(u.username) || !Truthy(u.email) || !Truthy(u.password) then (Err(400, FieldsRequired), users)
      else if FindByEmail(users, u.email).Some? then (Err(400, EmailExists), users)
      else
        var users' := users + [u];
        assert forall i :: 0 <= i < |users| ==> users'[i] == users[i];
        (Ok(201, u), users')
  }

  /**
   * `POST /login`: a missing body throws and is a 500; a falsy email or
   * password is a 400, an unknown email a 404; otherwise the reply is a 200
   * exactly when the stored password is strictly equal to the one sent,
   * and carries no token.
   */
  function Login(users: seq<PlainUser>, body: Option<PlainUser>): (r: Reply<string>)
    ensures body.None? ==> r == Err(500, UnexpectedError)
    ensures body.Some? && (!Truthy(body.value.email) || !Truthy(body.value.password)) ==> r == Err(400, CredentialsRequired)
    ensures body.Some? && Truthy(body.value.email) && Truthy(body.value.password) && FindByEmail(users, body.value.email).None?
            ==> r == Err(404, UserNotFound)
    ensures r.Ok? <==> && body.Some? && Truthy(body.value.email) && Truthy(body.value.password)
                       && FindByEmail(users, body.value.email).Some?
                       && FindByEmail(users, body.value.email).value.password == body.value.password
    ensures r.Ok? ==> r == Ok(200, LoginSuccessful)
    ensures body.Some? && Truthy(body.value.email) && Truthy(body.value.password)
            && FindByEmail(users, body.value.email).Some?
            && FindByEmail(users, body.value.email).value.password != body.value.password
            ==> r == Err(401, LoginMismatch)
    ensures r.Err? && r.code == 401 ==> r.message == LoginMismatch
  {
    match body
    case None => Err(500, UnexpectedError)
    case Some(b) =>
      if !Truthy(b.email) || !Truthy(b.password) then Err(400, CredentialsRequired)
      else
        match FindByEmail(users, b.email)
        case None => Err(404, UserNotFound)
        case Some(user) =>
          if user.password == b.password then Ok(200, LoginSuccessful)
          else Err(401, LoginMismatch)
  }

  /** Under the invariant, the user a lookup finds is the only one with that email. */
  lemma FoundIsOnly(users: seq<PlainUser>, u: PlainUser, v: PlainUser)
    requires Invariant(users) && u in users && v in users && u.email == v.email
    ensures u == v
  {
    var i :| 0 <= i < |users| && users[i] == u;
    var j :| 0 <= j < |users| && users[j] == v;
    assert !(i < j) && !(j < i);
  }

  /**
   * After a successful signup, logging in with the same email succeeds with
   * the same password and is a 401 with any other truthy one.
   */
  lemma SignupThenLogin(users: seq<PlainUser>, u: PlainUser, attempt: JsValue)
    requires Invariant(users) && Truthy(attempt)
    requires Signup(users, Some(u)).0.Ok?
    ensures var users' := Signup(users, Some(u)).1;
      var r := Login(users', Some(PlainUser(Undefined, u.email, attempt)));
      && (attempt == u.password ==> r == Ok(200, LoginSuccessful))
      && (attempt != u.password ==> r == Err(401, LoginMismatch))
  {
    var users' := Signup(users, Some(u)).1;
    assert users'[|users|] == u;
    var found := FindByEmail(users', u.email);
    assert found.Some?;
    FoundIsOnly(users', found.value, u);
  }

  /** The duplicate check is case-sensitive: two spellings that differ only in case are two accounts. */
  lemma EmailsAreCaseSensitive(name: JsValue, password: JsValue)
    requires Truthy(name) && Truthy(password)
    ensures var (r1, users1) := Signup([], Some(PlainUser(name, Str("ann@x.com"), password)));
      && r1.Ok?
      && Signup(users1, Some(PlainUser(name, Str("Ann@x.com"), password))).0.Ok?
  {
    var (r1, users1) := Signup([], Some(PlainUser(name, Str("ann@x.com"), password)));
    assert users1 == [PlainUser(name, Str("ann@x.com"), password)];
    assert Str("ann@x.com") != Str("Ann@x.com") by {
      assert "ann@x.com"[0] != "Ann@x.com"[0];
    }
  }
}

=== FILE: text.dfy ===
/**
 * The JavaScript string operations the handlers rely on: `split` on a single
 * character, `join`, `trim`, `toLowerCase`, `startsWith`, `replace` with a
 * string pattern, and the decimal rendering of integers (`toString`).
 */
module Text {
  import opened Common

  /**
   * `Array.prototype.join(sep)` on an array of strings: nothing for no parts,
   * the part itself for one, and otherwise the first part and the separator
   * in front of the rest.
   */
  function Join(parts: seq<string>, sep: string): (r: string)
    ensures |parts| == 0 ==> r == ""
    ensures |parts| == 1 ==> r == parts[0]
    ensures |parts| >= 2 ==> parts[0] + sep <= r
    ensures |parts| >= 1 ==> |r| >= |parts[0]| + (|parts| - 1) * |sep|
  {
    if |parts| == 0 then ""
    else if |parts| == 1 then parts[0]
    else parts[0] + sep + Join(parts[1..], sep)
  }

  /**
   * Joining two non-empty lists is joining each and putting the separator
   * between them; with the one-part case this fixes every join.
   */
  lemma {:induction false} JoinAppend(a: seq<string>, b: seq<string>, sep: string)
    requires |a| > 0 && |b| > 0
    ensures Join(a + b, sep) == Join(a, sep) + sep + Join(b, sep)
    decreases |a|
  {
    if |a| == 1 {
      assert (a + b)[1..] == b;
    } else {
      assert (a + b)[1..] == a[1..] + b;
      JoinAppend(a[1..], b, sep);
    }
  }

  /** With a non-empty separator, a join is empty exactly when there is nothing to join but empty text. */
  lemma JoinEmptyIff(parts: seq<string>, sep: string)
    requires |sep| > 0
    ensures Join(parts, sep) == "" <==> |parts| == 0 || (|parts| == 1 && parts[0] == "")
  {
    if |parts| >= 2 {
      assert |Join(parts, sep)| >= |sep|;
    }
  }

  /** `String.prototype.split(c)` for a one-character separator: always at least one piece. */
  function Split(s: string, c: char): (parts: seq<string>)
    ensures |parts| >= 1
  {
    if |s| == 0 then [""]
    else
      var rest := Split(s[1..], c);
      if s[0] == c then [""] + rest
      else [[s[0]] + rest[0]] + rest[1..]
  }

  /** A split has one more piece than the text has separators. */
  lemma {:induction false} SplitCount(s: string, c: char)
    ensures |Split(s, c)| == multiset(s)[c] + 1
  {
    if |s| > 0 {
      assert s == [s[0]] + s[1..];
      SplitCount(s[1..], c);
    }
  }

  /** Joining the pieces of a split with the separator gives back the original text. */
  lemma {:induction false} SplitJoin(s: string, c: char)
    ensures Join(Split(s, c), [c]) == s
  {
    if |s| > 0 {
      var rest := Split(s[1..], c);
      SplitJoin(s[1..], c);
      if s[0] == c {
        assert Split(s, c) == [""] + rest;
        assert ([""] + rest)[1..] == rest;
        assert s == [c] + s[1..];
      } else if |rest| == 1 {
        assert s == [s[0]] + s[1..];
      } else {
        var parts := Split(s, c);
        assert parts[1..] == rest[1..];
        assert s == [s[0]] + s[1..];
      }
    }
  }

  /** No piece of a split contains the separator. */
  lemma {:induction false} SplitPiecesFree(s: string, c: char)
    ensures forall i :: 0 <= i < |Split(s, c)| ==> c !in Split(s, c)[i]
  {
    if |s| > 0 {
      SplitPiecesFree(s[1..], c);
      var rest := Split(s[1..], c);
      var parts := Split(s, c);
      if s[0] == c {
        assert forall i :: 1 <= i < |parts| ==> parts[i] == rest[i - 1];
      } else {
        assert forall i :: 1 <= i < |parts| ==> parts[i] == rest[i];
        assert parts[0] == [s[0]] + rest[0];
      }
    }
  }

  /**
   * The first piece of a split is the text before the first separator:
   * a prefix free of `c` that is the whole text or is followed by `c`.
   */
  lemma SplitHead(s: string, c: char)
    ensures Split(s, c)[0] <= s
    ensures c !in Split(s, c)[0]
    ensures |Split(s, c)[0]| == |s| || s[|Split(s, c)[0]|] == c
  {
    SplitJoin(s, c);
    SplitPiecesFree(s, c);
  }

  /** Splitting text free of the separator gives that text alone. */
  lemma {:induction false} SplitWord(w: string, c: char)
    requires c !in w
    ensures Split(w, c) == [w]
  {
    if |w| > 0 {
      SplitWord(w[1..], c);
      assert [w[0]] + w[1..] == w;
    }
  }

  /** A separator-free word followed by the separator splits off as the first piece. */
  lemma {:induction false} SplitAfterWord(w: string, c: char, rest: string)
    requires c !in w
    ensures Split(w + [c] + rest, c) == [w] + Split(rest, c)
  {
    var s := w + [c] + rest;
    if |w| == 0 {
      assert s[1..] == rest;
    } else {
      assert s[1..] == w[1..] + [c] + rest;
      SplitAfterWord(w[1..], c, rest);
      assert [w[0]] + w[1..] == w;
    }
  }

  /** `String.prototype.startsWith`. */
  predicate StartsWith(s: string, prefix: string)
  {
    prefix <= s
  }

  /** `pat` occurs in `s` starting at position `j`. */
  predicate OccursAt(s: string, pat: string, j: nat)
  {
    j + |pat| <= |s| && s[j..j + |pat|] == pat
  }

  /** `String.prototype.indexOf` for a string pattern, with `None` for `-1`: the first occurrence. */
  function IndexOf(s: string, pat: string): (r: Option<nat>)
    ensures r.Some? ==> OccursAt(s, pat, r.value)
    ensures r.Some? ==> forall j: nat :: j < r.value ==> !OccursAt(s, pat, j)
    ensures r.None? ==> forall j: nat :: !OccursAt(s, pat, j)
    decreases |s|
  {
    if |pat| <= |s| && s[..|pat|] == pat then Some(0)
    else if |s| == 0 then None
    else
      assert forall j: nat :: j >= 1 ==> (OccursAt(s, pat, j) <==> OccursAt(s[1..], pat, j - 1)) by {
        forall j: nat | j >= 1 ensures OccursAt(s, pat, j) <==> OccursAt(s[1..], pat, j - 1) {
          if j + |pat| <= |s| {
            var a, b := s[j..j + |pat|], s[1..][j - 1..j - 1 + |pat|];
            assert |a| == |b| && forall k :: 0 <= k < |a| ==> a[k] == s[j + k] == b[k];
          }
        }
      }
      match IndexOf(s[1..], pat)
      case None =>
        None
      case Some(i) =>
        Some(i + 1)
  }

  /** `String.prototype.replace(pat, rep)` with a string pattern: only the first occurrence is replaced. */
  function ReplaceFirst(s: string, pat: string, rep: string): (r: string)
    ensures IndexOf(s, pat).None? ==> r == s
    ensures IndexOf(s, pat).Some? ==> var i := IndexOf(s, pat).value;
      && |r| == |s| - |pat| + |rep|
      && r[..i] == s[..i]
      && r[i..i + |rep|] == rep
      && r[i + |rep|..] == s[i + |pat|..]
  {
    match IndexOf(s, pat)
    case None => s
    case Some(i) => s[..i] + rep + s[i + |pat|..]
  }

  /** Replacing a prefix the text starts with by nothing strips exactly that prefix. */
  lemma ReplacePrefix(s: string, prefix: string)
    requires StartsWith(s, prefix)
    ensures ReplaceFirst(s, prefix, "") == s[|prefix|..]
  {
    assert s[..|prefix|] == prefix;
  }

  /** The characters `String.prototype.trim` removes: ECMAScript WhiteSpace and LineTerminator. */
  predicate IsJsSpace(c: char)
  {
    c == ' ' || c == '\t' || c == '\n' || c == '\r' || c == '\U{000B}' || c == '\U{000C}'
    || c == '\U{00A0}' || c == '\U{1680}' || ('\U{2000}' <= c <= '\U{200A}')
    || c == '\U{2028}' || c == '\U{2029}' || c == '\U{202F}' || c == '\U{205F}'
    || c == '\U{3000}' || c == '\U{FEFF}'
  }

  /** Drops leading white space: the result is a suffix, and only white space was dropped. */
  function TrimStart(s: string): (r: string)
    ensures |r| <= |s|
    ensures r == s[|s| - |r|..]
    ensures forall i :: 0 <= i < |s| - |r| ==> IsJsSpace(s[i])
    ensures |r| > 0 ==> !IsJsSpace(r[0])
  {
    if |s| > 0 && IsJsSpace(s[0]) then TrimStart(s[1..]) else s
  }

  /** Drops trailing white space: the result is a prefix, and only white space was dropped. */
  function TrimEnd(s: string): (r: string)
    ensures |r| <= |s|
    ensures r == s[..|r|]
    ensures forall i :: |r| <= i < |s| ==> IsJsSpace(s[i])
    ensures |r| > 0 ==> !IsJsSpace(r[|r| - 1])
  {
    if |s| > 0 && IsJsSpace(s[|s| - 1]) then TrimEnd(s[..|s| - 1]) else s
  }

  /** Leading white space in front of text that starts with none is exactly what `TrimStart` drops. */
  lemma {:induction false} TrimStartSkips(ws: string, t: string)
    requires forall i :: 0 <= i < |ws| ==> IsJsSpace(ws[i])
    requires |t| > 0 ==> !IsJsSpace(t[0])
    ensures TrimStart(ws + t) == t
  {
    if |ws| == 0 {
      assert ws + t == t;
    } else {
      assert (ws + t)[1..] == ws[1..] + t;
      TrimStartSkips(ws[1..], t);
    }
  }

  /** Text starting with a digit or a sign has no leading white space to drop. */
  lemma TrimStartUntouched(s: string)
    requires |s| > 0 && (IsDigit(s[0]) || s[0] == '-' || s[0] == '+')
    ensures TrimStart(s) == s
  {
  }

  /** `String.prototype.trim`: neither starts nor ends with white space; `TrimSlice` says what was dropped. */
  function Trim(s: string): (r: string)
    ensures |r| <= |s|
    ensures |r| > 0 ==> !IsJsSpace(r[0]) && !IsJsSpace(r[|r| - 1])
  {
    TrimEnd(TrimStart(s))
  }

  /** `trim` keeps one stretch of the text and drops only white space on either side of it. */
  lemma TrimSlice(s: string)
    ensures var r, i := Trim(s), |s| - |TrimStart(s)|;
      && i + |r| <= |s|
      && r == s[i..i + |r|]
      && (forall k :: 0 <= k < i ==> IsJsSpace(s[k]))
      && (forall k :: i + |r| <= k < |s| ==> IsJsSpace(s[k]))
  {
    var t := TrimStart(s);
    var r := TrimEnd(t);
    var i := |s| - |t|;
    assert t == s[i..];
    assert r == t[..|r|];
    assert r == s[i..i + |r|];
    forall k | i + |r| <= k < |s| ensures IsJsSpace(s[k]) {
      assert s[k] == t[k - i] && |r| <= k - i < |t|;
    }
  }

  /** Text with no white space at either end is left alone by `trim`. */
  lemma TrimUntouched(s: string)
    requires |s| > 0 ==> !IsJsSpace(s[0]) && !IsJsSpace(s[|s| - 1])
    ensures Trim(s) == s
  {
  }

  /** ASCII case folding of one character. */
  function LowerChar(c: char): char
  {
    if 'A' <= c <= 'Z' then (c as int + 32) as char else c
  }

  /** `String.prototype.toLowerCase`, for the ASCII letters. */
  function ToLower(s: string): (r: string)
    ensures |r| == |s|
    ensures forall i :: 0 <= i < |s| ==> r[i] == LowerChar(s[i])
  {
    Map(s, LowerChar)
  }

  /** `String(email).trim().toLowerCase()`: the form under which email addresses are compared. */
  function NormalizeEmail(s: string): (r: string)
    ensures |r| == |Trim(s)|
    ensures forall i :: 0 <= i < |r| ==> !('A' <= r[i] <= 'Z')
    ensures forall i :: 0 <= i < |r| ==> r[i] == LowerChar(Trim(s)[i])
  {
    ToLower(Trim(s))
  }

  /** Normalising twice is normalising once. */
  lemma NormalizeEmailIdempotent(s: string)
    ensures NormalizeEmail(NormalizeEmail(s)) == NormalizeEmail(s)
  {
    var t := Trim(s);
    var l := ToLower(t);
    assert |l| > 0 ==> !IsJsSpace(l[0]) && !IsJsSpace(l[|l| - 1]);
    TrimUntouched(l);
    assert ToLower(l) == l;
  }

  /** An address that starts with a capital letter and ends in no white space is changed by normalisation. */
  lemma CapitalNotNormalized(s: string)
    requires |s| > 0 && 'A' <= s[0] <= 'Z' && !IsJsSpace(s[|s| - 1])
    ensures NormalizeEmail(s) != s
  {
    assert !IsJsSpace(s[0]);
    TrimUntouched(s);
    assert NormalizeEmail(s)[0] == LowerChar(s[0]) != s[0];
  }

  // ---------------------------------------------------------------------------
  // Decimal numerals
  // ---------------------------------------------------------------------------

  predicate IsDigit(c: char)
  {
    '0' <= c <= '9'
  }

  /** The value of a digit character in bases up to 36; other characters get a value no base admits. */
  function DigitValue(c: char): nat
  {
    if '0' <= c <= '9' then c as int - '0' as int
    else if 'a' <= c <= 'z' then c as int - 'a' as int + 10
    else if 'A' <= c <= 'Z' then c as int - 'A' as int + 10
    else 36
  }

  function DigitChar(d: nat): (c: char)
    requires d < 10
    ensures IsDigit(c) && DigitValue(c) == d
  {
    ('0' as int + d) as char
  }

  /** The number a string of digits denotes in base `radix`, most significant digit first. */
  function DigitsValue(s: string, radix: nat): nat
  {
    if |s| == 0 then 0 else DigitsValue(s[..|s| - 1], radix) * radix + DigitValue(s[|s| - 1])
  }

  /** A decimal numeral without sign or superfluous leading zero, as `Number.prototype.toString` writes one. */
  predicate IsCanonicalDecimal(s: string)
  {
    && |s| >= 1
    && (forall i :: 0 <= i < |s| ==> IsDigit(s[i]))
    && (s[0] == '0' ==> |s| == 1)
  }

  /** `toString` of a non-negative integer. */
  function NatToString(n: nat): (s: string)
    ensures IsCanonicalDecimal(s)
    ensures s[0] == '0' <==> n == 0
  {
    if n < 10 then [DigitChar(n)] else NatToString(n / 10) + [DigitChar(n % 10)]
  }

  /** `toString` of an integer. */
  function IntToString(i: int): (s: string)
    ensures |s| > 0
    ensures s[0] == '-' <==> i < 0
    ensures IsCanonicalDecimal(if i < 0 then s[1..] else s)
  {
    if i < 0 then "-" + NatToString(-i) else NatToString(i)
  }

  /** Reads a canonical decimal numeral; anything else is rejected. */
  function ParseNat(s: string): Option<nat>
  {
    if IsCanonicalDecimal(s) then Some(DigitsValue(s, 10)) else None
  }

  lemma {:induction false} NatToStringValue(n: nat)
    ensures DigitsValue(NatToString(n), 10) == n
  {
    if n >= 10 {
      var t := NatToString(n / 10);
      var s := t + [DigitChar(n % 10)];
      assert s[..|s| - 1] == t;
      NatToStringValue(n / 10);
    }
  }

  /** Reading back a rendered number gives that number. */
  lemma ParseNatRoundTrip(n: nat)
    ensures ParseNat(NatToString(n)) == Some(n)
  {
    NatToStringValue(n);
  }

  lemma {:induction false} DigitsValueZero(s: string)
    requires forall i :: 0 <= i < |s| ==> IsDigit(s[i])
    requires DigitsValue(s, 10) == 0
    ensures forall i :: 0 <= i < |s| ==> s[i] == '0'
  {
    if |s| > 0 {
      DigitsValueZero(s[..|s| - 1]);
      assert forall i :: 0 <= i < |s| - 1 ==> s[i] == s[..|s| - 1][i];
    }
  }

  /** Every numeral `ParseNat` accepts is the rendering of the number it reads. */
  lemma {:induction false} ParseNatCanonical(s: string)
    requires ParseNat(s).Some?
    ensures NatToString(ParseNat(s).value) == s
  {
    var v := DigitsValue(s, 10);
    if |s| == 1 {
      assert s[..0] == "" && IsDigit(s[0]);
      assert v == DigitsValue(s[..0], 10) * 10 + DigitValue(s[0]) == DigitValue(s[0]);
      assert DigitChar(v) == s[0];
    } else {
      var t := s[..|s| - 1];
      var d := DigitValue(s[|s| - 1]);
      assert forall i :: 0 <= i < |t| ==> t[i] == s[i];
      assert IsCanonicalDecimal(t);
      ParseNatCanonical(t);
      var tv := DigitsValue(t, 10);
      if tv == 0 {
        DigitsValueZero(t);
        assert false;
      }
      assert v == tv * 10 + d && d < 10;
      assert v / 10 == tv && v % 10 == d;
      assert DigitChar(d) == s[|s| - 1];
      assert s == t + [s[|s| - 1]];
    }
  }

  /** Distinct numbers have distinct renderings. */
  lemma NatToStringInjective(a: nat, b: nat)
    requires NatToString(a) == NatToString(b)
    ensures a == b
  {
    ParseNatRoundTrip(a);
    ParseNatRoundTrip(b);
  }
}

=== FILE: tmdb.dfy ===
/**
 * The shape of the catalog service's JSON replies (the TMDb search and
 * movie-detail endpoints), as far as the handlers read them. Every field the
 * handlers reach with `data.x` or `data.x?.y` is optional, so every "missing
 * upstream field" branch is explicit.
 */
module Tmdb {
  import opened Common

  /** Prefix of absolute poster URLs in search results and saved movies. */
  const PosterBase := "https://image.tmdb.org/t/p/w500"
  /** Prefix of absolute image URLs in the detail view. */
  const OriginalBase := "https://image.tmdb.org/t/p/original"

  /**
   * A JavaScript number the model does not interpret (a vote average or a
   * revenue): whether it is truthy, and its rendering as text.
   */
  datatype Number = Number(truthy: bool, text: string)

  datatype SearchHit = SearchHit(
    id: Option<int>,
    title: Option<string>,
    releaseDate: Option<string>,
    posterPath: Option<string>,
    overview: Option<string>,
    voteAverage: Option<Number>,
    voteCount: Option<int>)

  datatype SearchPayload = SearchPayload(results: Option<seq<SearchHit>>)

  /** An entry of `genres`, `production_countries` or `production_companies`. */
  datatype Named = Named(name: Option<string>)

  datatype CrewMember = CrewMember(job: Option<string>, name: Option<string>)

  datatype CastMember = CastMember(name: Option<string>, character: Option<string>)

  /** An entry of `images.logos`: its `iso_639_1` language code and `file_path`. */
  datatype Logo = Logo(language: Option<string>, filePath: Option<string>)

  datatype Images = Images(logos: Option<seq<Logo>>)

  datatype Credits = Credits(cast: Option<seq<CastMember>>, crew: Option<seq<CrewMember>>)

  /** The movie-detail reply; `statusCode`/`statusMessage` are set when the catalog reports an error. */
  datatype DetailPayload = DetailPayload(
    statusCode: Option<int>,
    statusMessage: Option<string>,
    id: Option<int>,
    title: Option<string>,
    releaseDate: Option<string>,
    posterPath: Option<string>,
    backdropPath: Option<string>,
    overview: Option<string>,
    genres: Option<seq<Named>>,
    runtime: Option<int>,
    originalLanguage: Option<string>,
    voteAverage: Option<Number>,
    voteCount: Option<int>,
    revenue: Option<Number>,
    productionCountries: Option<seq<Named>>,
    productionCompanies: Option<seq<Named>>,
    credits: Option<Credits>,
    images: Option<Images>)

  /** The JSON object `{}`. */
  function EmptyPayload(): DetailPayload
  {
    DetailPayload(None, None, None, None, None, None, None, None, None,
                  None, None, None, None, None, None, None, None, None)
  }

  /** JavaScript truthiness of an optional string field. */
  predicate Present(s: Option<string>)
  {
    s.Some? && s.value != ""
  }

  /** JavaScript truthiness of an optional integer field. */
  predicate PresentInt(n: Option<int>)
  {
    n.Some? && n.value != 0
  }

  /** `path ? base + path : null`. */
  function ImageUrl(base: string, path: Option<string>): (r: Option<string>)
    ensures r.Some? <==> Present(path)
    ensures r.Some? ==> r.value == base + path.value
  {
    if Present(path) then Some(base + path.value) else None
  }

  /** `data.credits?.crew || []`. */
  function CrewOf(data: DetailPayload): seq<CrewMember>
  {
    if data.credits.Some? && data.credits.value.crew.Some? then data.credits.value.crew.value else []
  }

  /** `data.credits?.cast || []`. */
  function CastOf(data: DetailPayload): seq<CastMember>
  {
    if data.credits.Some? && data.credits.value.cast.Some? then data.credits.value.cast.value else []
  }

  /** Entry `i` is the first crew entry whose job is `job`. */
  predicate FirstWithJob(crew: seq<CrewMember>, job: string, i: int)
  {
    && 0 <= i < |crew|
    && crew[i].job == Some(job)
    && forall j :: 0 <= j < i ==> crew[j].job != Some(job)
  }

  /**
   * `data.credits?.crew?.find(c => c.job === 'Director')?.name`, absent when
   * there is no director or the first one has no (or an empty) name.
   */
  function Director(data: DetailPayload): (r: Option<string>)
    ensures r.Some? ==> r.value != "" && exists i :: FirstWithJob(CrewOf(data), "Director", i) && CrewOf(data)[i].name == r
    ensures r.None? ==> forall i :: FirstWithJob(CrewOf(data), "Director", i) ==> !Present(CrewOf(data)[i].name)
  {
    var crew := CrewOf(data);
    match FindIndex(crew, (c: CrewMember) => c.job == Some("Director"))
    case None => None
    case Some(i) =>
      assert FirstWithJob(crew, "Director", i);
      if Present(crew[i].name) then crew[i].name else None
  }

  /** The job titles whose holders count as writers. */
  predicate IsWriterJob(c: CrewMember)
  {
    c.job == Some("Writer") || c.job == Some("Screenplay")
  }

  /** `data.images?.logos`, with an absent list read as empty: `find` on it yields nothing either way. */
  function LogosOf(data: DetailPayload): seq<Logo>
  {
    if data.images.Some? && data.images.value.logos.Some? then data.images.value.logos.value else []
  }

  /**
   * `data.images?.logos?.find(l => l.iso_639_1 === 'en')?.file_path`, made
   * absolute: absent when there is no English logo or the first English logo
   * has no file path; later English logos are not consulted.
   */
  function EnglishLogo(data: DetailPayload): (r: Option<string>)
    ensures r.Some? ==> exists i ::
      && 0 <= i < |LogosOf(data)|
      && LogosOf(data)[i].language == Some("en")
      && (forall j :: 0 <= j < i ==> LogosOf(data)[j].language != Some("en"))
      && Present(LogosOf(data)[i].filePath)
      && r.value == OriginalBase + LogosOf(data)[i].filePath.value
    ensures (forall i :: 0 <= i < |LogosOf(data)| ==> LogosOf(data)[i].language != Some("en")) ==> r.None?
    ensures forall i :: && 0 <= i < |LogosOf(data)|
                        && LogosOf(data)[i].language == Some("en")
                        && (forall j :: 0 <= j < i ==> LogosOf(data)[j].language != Some("en"))
                        ==> r == if Present(LogosOf(data)[i].filePath)
                                 then Some(OriginalBase + LogosOf(data)[i].filePath.value)
                                 else None
  {
    var logos := LogosOf(data);
    match FindIndex(logos, (l: Logo) => l.language == Some("en"))
    case None => None
    case Some(i) => ImageUrl(OriginalBase, logos[i].filePath)
  }
}

=== FILE: user_schema.dfy ===
/**
 * The user collection (backend/models/User.js): `fullName`, `email` and
 * `password` are required, and `email` carries a unique index on the text
 * exactly as stored.
 */
module UserSchema {
  import opened Common

  /** A stored user; `id` is the store-assigned `_id`, `password` whatever text the handler stored. */
  datatype User = User(id: nat, fullName: string, email: string, password: string)

  datatype UserStore = UserStore(users: seq<User>, nextId: nat)

  datatype UserError = ValidationError | DuplicateKey

  /** Required fields set, `_id`s fresh and distinct, no two users with the same stored email. */
  predicate Invariant(st: UserStore)
  {
    && (forall i :: 0 <= i < |st.users| ==>
          && st.users[i].fullName != ""
          && st.users[i].email != ""
          && st.users[i].password != ""
          && st.users[i].id < st.nextId)
    && (forall i, j :: 0 <= i < j < |st.users| ==>
          st.users[i].id != st.users[j].id && st.users[i].email != st.users[j].email)
  }

  function Empty(): (st: UserStore)
    ensures Invariant(st)
  {
    UserStore([], 0)
  }

  /** `User.findOne({email})`: an exact match on the stored text. */
  function FindByEmail(st: UserStore, email: string): (r: Option<User>)
    ensures r.Some? ==> r.value in st.users && r.value.email == email
    ensures r.None? <==> forall i :: 0 <= i < |st.users| ==> st.users[i].email != email
  {
    Find(st.users, (u: User) => u.email == email)
  }

  /**
   * `User.create`: empty required text fails validation, an email already
   * stored violates the unique index, otherwise the user is appended under a
   * fresh `_id`.
   */
  function Create(st: UserStore, fullName: string, email: string, password: string)
    : (r: Result<(UserStore, User), UserError>)
    ensures r.Failure? && r.error == ValidationError <==> fullName == "" || email == "" || password == ""
    ensures r.Failure? && r.error == DuplicateKey <==>
      fullName != "" && email != "" && password != "" && FindByEmail(st, email).Some?
    ensures r.Success? ==> && r.value.1 == User(st.nextId, fullName, email, password)
                           && r.value.0 == UserStore(st.users + [r.value.1], st.nextId + 1)
    ensures r.Success? && Invariant(st) ==> Invariant(r.value.0)
  {
    if fullName == "" || email == "" || password == "" then Failure(ValidationError)
    else if FindByEmail(st, email).Some? then Failure(DuplicateKey)
    else
      var u := User(st.nextId, fullName, email, password);
      var st' := UserStore(st.users + [u], st.nextId + 1);
      assert forall i :: 0 <= i < |st.users| ==> st'.users[i] == st.users[i];
      Success((st', u))
  }
}

=== FILE: watchlist.dfy ===
/**
 * The watchlist routes of backend/Routes/movieRoutes.js, after the
 * authorization gate has bound the caller's `userId`: list, add and delete.
 * Each handler takes the collection and returns the reply with the new
 * collection; the catalog is a parameter as in the `Catalog` module, and the
 * current time `now` stands for `Date.now()`.
 */
module Watchlist {
  import opened Common
  import opened Text
  import opened Js
  import opened Http
  import opened Tmdb
  import opened Catalog
  import opened MovieSchema

  const MovieIdRequired := "movieId is required"
  const AlreadySaved := "Movie already saved"
  const RecordNotFound := "Movie not found"
  const RecordDeleted := "Movie deleted successfully"
  const TmdbPrefix := "tmdb-"
  /** The placeholder stored for every field the catalog does not supply. */
  const NA := "N/A"
  /** How many cast names the stored `actors` field keeps. */
  const SavedCastSize := 5

  // ---------------------------------------------------------------------------
  // GET /movies
  // ---------------------------------------------------------------------------

  /** `GET /movies`: exactly the caller's records. */
  function List(st: MovieStore, userId: string): (r: Reply<seq<SavedMovie>>)
    ensures r.Ok? && r.code == 200
    ensures forall i :: 0 <= i < |r.value| ==> r.value[i] in st.records && r.value[i].userId == userId
    ensures forall m :: m in st.records && m.userId == userId ==> m in r.value
    ensures forall m :: multiset(r.value)[m] == if m.userId == userId then multiset(st.records)[m] else 0
  {
    Ok(200, FindByUser(st, userId))
  }

  // ---------------------------------------------------------------------------
  // Flattening a detail reply into the stored string fields
  // ---------------------------------------------------------------------------

  /** `x || 'N/A'` for text. */
  function OrNA(s: string): (r: string)
    ensures r != ""
    ensures s != "" ==> r == s
    ensures s == "" ==> r == NA
  {
    if s == "" then NA else s
  }

  /** `x || 'N/A'` for an optional text field: absent or empty text becomes the placeholder. */
  function FieldOrNA(x: Option<string>): (r: string)
    ensures r != ""
    ensures Present(x) ==> r == x.value
    ensures !Present(x) ==> r == NA
  {
    if Present(x) then x.value else NA
  }

  /** `n ? n.toString() : 'N/A'` for an opaque catalogue number. */
  function NumberOrNA(n: Option<Number>): (r: string)
    ensures n.Some? && n.value.truthy ==> r == n.value.text
    ensures !(n.Some? && n.value.truthy) ==> r == NA
  {
    if n.Some? && n.value.truthy then n.value.text else NA
  }

  /** `n ? n.toString() : 'N/A'` for an integer count. */
  function CountOrNA(n: Option<int>): (r: string)
    ensures r != ""
    ensures PresentInt(n) ==> r == IntToString(n.value)
    ensures !PresentInt(n) ==> r == NA
  {
    if PresentInt(n) then IntToString(n.value) else NA
  }

  /** `revenue ? `$${revenue.toLocaleString()}` : 'N/A'`, with the digits opaque. */
  function BoxOffice(revenue: Option<Number>): (r: string)
    ensures r != ""
    ensures revenue.Some? && revenue.value.truthy ==> r == "$" + revenue.value.text
    ensures !(revenue.Some? && revenue.value.truthy) ==> r == NA
  {
    if revenue.Some? && revenue.value.truthy then "$" + revenue.value.text else NA
  }

  /** `x.name` as `join` renders it: an absent name becomes empty text. */
  function NameOf(n: Named): string
  {
    if n.name.Some? then n.name.value else ""
  }

  function CrewName(c: CrewMember): string
  {
    if c.name.Some? then c.name.value else ""
  }

  function CastName(c: CastMember): string
  {
    if c.name.Some? then c.name.value else ""
  }

  /** `list?.map(x => x.name).join(', ')`, empty when the list is absent. */
  function JoinNames(list: Option<seq<Named>>): string
  {
    if list.Some? then Join(Map(list.value, NameOf), ", ") else ""
  }

  /** The names of the crew members credited as `Writer` or `Screenplay`, in crew order. */
  function WritersOf(crew: seq<CrewMember>): (r: seq<string>)
    ensures |r| <= |crew|
  {
    Map(Filter(crew, IsWriterJob), CrewName)
  }

  /**
   * `WritersOf` follows the crew list: nothing from an empty crew, a single
   * credit's name exactly when it is a writing credit (repeats included), and
   * the names of two stretches of crew one after the other.
   */
  lemma WritersInCrewOrder(a: seq<CrewMember>, b: seq<CrewMember>, c: CrewMember)
    ensures WritersOf([]) == []
    ensures WritersOf([c]) == if IsWriterJob(c) then [CrewName(c)] else []
    ensures WritersOf(a + b) == WritersOf(a) + WritersOf(b)
  {
    FilterOne(c, IsWriterJob);
    FilterAppend(a, b, IsWriterJob);
    MapAppend(Filter(a, IsWriterJob), Filter(b, IsWriterJob), CrewName);
  }

  /** The writer names of a detail reply. */
  function WriterNames(data: DetailPayload): (r: seq<string>)
    ensures r == WritersOf(CrewOf(data))
  {
    WritersOf(CrewOf(data))
  }

  /** The names of the first five cast entries. */
  function ActorNames(data: DetailPayload): (r: seq<string>)
    ensures |r| <= SavedCastSize && |r| <= |CastOf(data)|
    ensures |r| == if |CastOf(data)| < SavedCastSize then |CastOf(data)| else SavedCastSize
    ensures forall i :: 0 <= i < |r| ==> r[i] == CastName(CastOf(data)[i])
  {
    Map(Take(CastOf(data), SavedCastSize), CastName)
  }

  /** `data.release_date ? data.release_date.split('-')[0] : 'N/A'`. */
  function Year(data: DetailPayload): (r: string)
    ensures !Present(data.releaseDate) ==> r == NA
    ensures Present(data.releaseDate) ==>
      var date := data.releaseDate.value;
      r <= date && '-' !in r && (|r| == |date| || date[|r|] == '-')
  {
    if Present(data.releaseDate) then
      SplitHead(data.releaseDate.value, '-');
      Split(data.releaseDate.value, '-')[0]
    else NA
  }

  /** `data.runtime ? `${data.runtime} min` : 'N/A'`. */
  function Runtime(data: DetailPayload): (r: string)
    ensures PresentInt(data.runtime) ==> r == IntToString(data.runtime.value) + " min"
    ensures r == NA <==> !PresentInt(data.runtime)
  {
    if PresentInt(data.runtime) then
      MinutesNotNA(data.runtime.value);
      IntToString(data.runtime.value) + " min"
    else NA
  }

  /**
   * The stored string fields of a saved movie, computed from the catalog's
   * detail reply. The fields the catalog has no source for are fixed
   * placeholders, and every field built with an `N/A` fallback is non-empty.
   */
  function Flatten(data: DetailPayload): (r: MovieInfo)
    ensures r.rated == NA && r.awards == NA && r.metascore == NA
    ensures r.kind == "movie" && r.ratings == []
    ensures r.released != "" && r.director != "" && r.writer != "" && r.actors != ""
    ensures r.plot != "" && r.language != "" && r.country != "" && r.poster != ""
    ensures r.voteCount != "" && r.boxOffice != "" && r.production != ""
    ensures Present(data.releaseDate) ==> r.released == data.releaseDate.value
    ensures Present(data.overview) ==> r.plot == data.overview.value
    ensures Present(data.originalLanguage) ==> r.language == data.originalLanguage.value
    ensures Present(data.posterPath) ==> r.poster == PosterBase + data.posterPath.value
    ensures !Present(data.posterPath) ==> r.poster == NA
    ensures r.released == FieldOrNA(data.releaseDate) && r.plot == FieldOrNA(data.overview)
    ensures r.language == FieldOrNA(data.originalLanguage)
    ensures r.year == Year(data) && r.runtime == Runtime(data)
    ensures r.director == FieldOrNA(Director(data))
    ensures r.writer == OrNA(Join(WriterNames(data), ", ")) && r.actors == OrNA(Join(ActorNames(data), ", "))
    ensures r.genre == if data.genres.Some? then JoinNames(data.genres) else NA
    ensures r.country == OrNA(JoinNames(data.productionCountries))
    ensures r.production == OrNA(JoinNames(data.productionCompanies))
    ensures r.voteAverage == NumberOrNA(data.voteAverage)
    ensures r.voteCount == CountOrNA(data.voteCount)
    ensures r.boxOffice == BoxOffice(data.revenue)
  {
    MovieInfo(
      year := Year(data),
      rated := NA,
      released := FieldOrNA(data.releaseDate),
      runtime := Runtime(data),
      genre := if data.genres.Some? then JoinNames(data.genres) else NA,
      director := FieldOrNA(Director(data)),
      writer := OrNA(Join(WriterNames(data), ", ")),
      actors := OrNA(Join(ActorNames(data), ", ")),
      plot := FieldOrNA(data.overview),
      language := FieldOrNA(data.originalLanguage),
      country := OrNA(JoinNames(data.productionCountries)),
      awards := NA,
      poster := if Present(data.posterPath) then PosterBase + data.posterPath.value else NA,
      ratings := [],
      metascore := NA,
      voteAverage := NumberOrNA(data.voteAverage),
      voteCount := CountOrNA(data.voteCount),
      kind := "movie",
      boxOffice := BoxOffice(data.revenue),
      production := OrNA(JoinNames(data.productionCompanies)))
  }

  /** `year` is the release date's text before its first `-`, or `N/A` without a release date. */
  lemma YearIsLeadingComponent(data: DetailPayload)
    ensures !Present(data.releaseDate) ==> Flatten(data).year == NA
    ensures Present(data.releaseDate) ==>
      var date, year := data.releaseDate.value, Flatten(data).year;
      && year <= date
      && '-' !in year
      && (|year| == |date| || date[|year|] == '-')
  {
  }

  /** Text ending in " min" is never the placeholder. */
  lemma MinutesNotNA(n: int)
    ensures IntToString(n) + " min" != NA
  {
    var s := IntToString(n) + " min";
    assert s[|s| - 1] == 'n';
  }

  /** `runtime` is `<n> min` for a non-zero runtime and `N/A` when it is absent or zero. */
  lemma RuntimeField(data: DetailPayload)
    ensures PresentInt(data.runtime) ==> Flatten(data).runtime == IntToString(data.runtime.value) + " min"
    ensures Flatten(data).runtime == NA <==> !PresentInt(data.runtime)
  {
  }

  /**
   * `writer` lists, comma-separated, the names of the crew credited as
   * `Writer` or `Screenplay`; with no such crew it is `N/A`.
   */
  lemma WriterField(data: DetailPayload)
    ensures forall c :: c in CrewOf(data) && IsWriterJob(c) ==> CrewName(c) in WriterNames(data)
    ensures forall n :: n in WriterNames(data) ==> exists c :: c in CrewOf(data) && IsWriterJob(c) && CrewName(c) == n
    ensures (forall c :: c in CrewOf(data) ==> !IsWriterJob(c)) ==> Flatten(data).writer == NA
    ensures Join(WriterNames(data), ", ") != "" ==> Flatten(data).writer == Join(WriterNames(data), ", ")
  {
    var writers := Filter(CrewOf(data), IsWriterJob);
    var names := WriterNames(data);
    forall c | c in CrewOf(data) && IsWriterJob(c) ensures CrewName(c) in names {
      var k :| 0 <= k < |writers| && writers[k] == c;
      assert names[k] == CrewName(c);
    }
    forall n | n in names ensures exists c :: c in CrewOf(data) && IsWriterJob(c) && CrewName(c) == n {
      var k :| 0 <= k < |names| && names[k] == n;
      assert writers[k] in CrewOf(data) && IsWriterJob(writers[k]);
    }
  }

  /**
   * `actors` joins the names of at most the first five cast entries: `N/A`
   * without a cast, the one name (or `N/A` when it is empty) for a cast of
   * one, and the comma-separated names otherwise.
   */
  lemma ActorsField(data: DetailPayload)
    ensures |ActorNames(data)| <= SavedCastSize
    ensures |CastOf(data)| == 0 ==> Flatten(data).actors == NA
    ensures |CastOf(data)| == 1 ==> Flatten(data).actors == OrNA(CastName(CastOf(data)[0]))
    ensures |CastOf(data)| >= 2 ==> Flatten(data).actors == Join(ActorNames(data), ", ")
    ensures |CastOf(data)| >= SavedCastSize ==> |ActorNames(data)| == SavedCastSize
    ensures Join(ActorNames(data), ", ") != "" ==> Flatten(data).actors == Join(ActorNames(data), ", ")
  {
    JoinEmptyIff(ActorNames(data), ", ");
  }

  // ---------------------------------------------------------------------------
  // POST /movies
  // ---------------------------------------------------------------------------

  /**
   * The catalog id the add route asks for: `movieId.toString()`, with a
   * leading `tmdb-` removed (`replace` removes the first occurrence, which is
   * the prefix).
   */
  function LookupKey(movieId: JsValue): (k: string)
    ensures StartsWith(ToJsString(movieId), TmdbPrefix) ==> k == ToJsString(movieId)[|TmdbPrefix|..]
    ensures !StartsWith(ToJsString(movieId), TmdbPrefix) ==> k == ToJsString(movieId)
  {
    var s := ToJsString(movieId);
    if StartsWith(s, TmdbPrefix) then
      ReplacePrefix(s, TmdbPrefix);
      ReplaceFirst(s, TmdbPrefix, "")
    else s
  }

  /** What the add route hands to `Movie.create`. */
  function Draft(data: DetailPayload, key: string, userId: string, now: int): MovieDraft
  {
    MovieDraft(data.title, Some(key), Some(userId), Some(now), Flatten(data), Some(data))
  }

  /** The catalog reply the add route works from. */
  function Fetched(movieId: JsValue, catalog: string -> Option<DetailPayload>): Option<DetailPayload>
  {
    catalog(LookupKey(movieId))
  }

  /** The reply names a movie the catalog knows. */
  predicate Hit(data: Option<DetailPayload>)
  {
    data.Some? && !CatalogMiss(data.value)
  }

  /** The stored key for a catalog hit: `data.id.toString()`. */
  function StoredKey(data: DetailPayload): string
    requires !CatalogMiss(data)
  {
    IntToString(data.id.value)
  }

  /**
   * `POST /movies`: a falsy `movieId` is a 400; then the catalog is asked
   * (a miss is a 404, before any duplicate check); then a record for the same
   * user and `data.id.toString()` is a 409; otherwise the flattened record is
   * created (validation failure is a 500, the unique index a 409) and the
   * reply is 201. A failed fetch is a 500. Only a 201 changes the collection.
   */
  function Add(st: MovieStore, userId: string, movieId: JsValue, catalog: string -> Option<DetailPayload>, now: int)
    : (r: (Reply<SavedMovie>, MovieStore))
    ensures !Truthy(movieId) ==> r == (Err(400, MovieIdRequired), st)
    ensures Truthy(movieId) && Fetched(movieId, catalog).Some? && CatalogMiss(Fetched(movieId, catalog).value)
            ==> r == (Err(404, MissMessage(Fetched(movieId, catalog).value, NotInCatalog)), st)
    ensures Truthy(movieId) && Hit(Fetched(movieId, catalog))
            && FindOne(st, userId, StoredKey(Fetched(movieId, catalog).value)).Some?
            ==> r == (Err(409, AlreadySaved), st)
    ensures Truthy(movieId) && Fetched(movieId, catalog).None? ==> r == (Err(500, UnexpectedError), st)
    ensures Truthy(movieId) && Hit(Fetched(movieId, catalog))
            && FindOne(st, userId, StoredKey(Fetched(movieId, catalog).value)).None?
            && (!Present(Fetched(movieId, catalog).value.title) || userId == "")
            ==> r == (Err(500, UnexpectedError), st)
    ensures r.0.Ok? <==> && Truthy(movieId) && Hit(Fetched(movieId, catalog))
                         && FindOne(st, userId, StoredKey(Fetched(movieId, catalog).value)).None?
                         && Present(Fetched(movieId, catalog).value.title) && userId != ""
    ensures !r.0.Ok? ==> r.1 == st
    ensures r.0.Ok? ==> && r.0.code == 201
                        && Truthy(movieId) && Hit(Fetched(movieId, catalog))
                        && var data := Fetched(movieId, catalog).value;
                           && r.0.value.userId == userId
                           && r.0.value.movieId == StoredKey(data)
                           && Some(r.0.value.title) == data.title
                           && r.0.value.watchedDate == now
                           && r.0.value.info == Flatten(data)
                           && r.0.value.fullTmdbData == data
                           && r.0.value.id == st.nextId
                           && r.1 == MovieStore(st.records + [r.0.value], st.nextId + 1)
    ensures Invariant(st) ==> Invariant(r.1)
  {
    if !Truthy(movieId) then (Err(400, MovieIdRequired), st)
    else
      match Fetched(movieId, catalog)
      case None => (Err(500, UnexpectedError), st)
      case Some(data) =>
        if CatalogMiss(data) then (Err(404, MissMessage(data, NotInCatalog)), st)
        else
          var key := StoredKey(data);
          if FindOne(st, userId, key).Some? then (Err(409, AlreadySaved), st)
          else Save(st, data, userId, now)
  }

  /**
   * The `Movie.create` step of the add route, once the pair is known to be
   * new: a record without a title or a user id fails validation, a 500;
   * otherwise the flattened record is appended and the reply is 201.
   */
  function Save(st: MovieStore, data: DetailPayload, userId: string, now: int): (r: (Reply<SavedMovie>, MovieStore))
    requires !CatalogMiss(data) && FindOne(st, userId, StoredKey(data)).None?
    ensures r.0.Ok? <==> Present(data.title) && userId != ""
    ensures !r.0.Ok? ==> r == (Err(500, UnexpectedError), st)
    ensures r.0.Ok? ==> && r.0.code == 201
                        && r.0.value.userId == userId
                        && r.0.value.movieId == StoredKey(data)
                        && Some(r.0.value.title) == data.title
                        && r.0.value.watchedDate == now
                        && r.0.value.info == Flatten(data)
                        && r.0.value.fullTmdbData == data
                        && r.0.value.id == st.nextId
                        && r.1 == MovieStore(st.records + [r.0.value], st.nextId + 1)
    ensures Invariant(st) ==> Invariant(r.1)
  {
    match Create(st, Draft(data, StoredKey(data), userId, now), now)
    case Failure(DuplicateKey) => (Err(409, AlreadySaved), st)
    case Failure(_) => (Err(500, UnexpectedError), st)
    case Success((st', m)) => (Ok(201, m), st')
  }

  /** `tmdb-603` and `603` are the same request to the add route. */
  lemma AddIgnoresTmdbPrefix(st: MovieStore, userId: string, key: string,
                             catalog: string -> Option<DetailPayload>, now: int)
    requires key != "" && !StartsWith(key, TmdbPrefix)
    ensures Add(st, userId, Str(TmdbPrefix + key), catalog, now) == Add(st, userId, Str(key), catalog, now)
  {
    assert StartsWith(TmdbPrefix + key, TmdbPrefix);
    assert (TmdbPrefix + key)[|TmdbPrefix|..] == key;
  }

  /** A number and its decimal text are the same request to the add route. */
  lemma AddNumberOrText(st: MovieStore, userId: string, n: int,
                        catalog: string -> Option<DetailPayload>, now: int)
    requires n != 0
    ensures Add(st, userId, Num(n), catalog, now) == Add(st, userId, Str(IntToString(n)), catalog, now)
  {
  }

  /**
   * Adding the same movie twice: whatever the first call did, the second is
   * a 409 that changes nothing, and the pair is stored exactly once.
   */
  lemma AddTwice(st: MovieStore, userId: string, movieId: JsValue,
                 catalog: string -> Option<DetailPayload>, now1: int, now2: int)
    requires Invariant(st)
    requires Add(st, userId, movieId, catalog, now1).0.Ok?
    ensures var st1 := Add(st, userId, movieId, catalog, now1).1;
      Add(st1, userId, movieId, catalog, now2) == (Err(409, AlreadySaved), st1)
  {
    var (r1, st1) := Add(st, userId, movieId, catalog, now1);
    assert st1.records[|st.records|] == r1.value;
  }

  /**
   * The unique index is per user: another user's copy of the same catalog
   * movie never stops a user from adding it.
   */
  lemma OthersCopiesDoNotConflict(st: MovieStore, userId: string, movieId: JsValue,
                                  catalog: string -> Option<DetailPayload>, now: int)
    requires Truthy(movieId) && userId != ""
    requires Hit(Fetched(movieId, catalog)) && Present(Fetched(movieId, catalog).value.title)
    requires forall m :: m in st.records && m.movieId == StoredKey(Fetched(movieId, catalog).value) ==> m.userId != userId
    ensures Add(st, userId, movieId, catalog, now).0.code == 201
  {
    var data := Fetched(movieId, catalog).value;
    assert FindOne(st, userId, StoredKey(data)).None?;
  }

  // ---------------------------------------------------------------------------
  // DELETE /movies/:id
  // ---------------------------------------------------------------------------

  /**
   * `DELETE /movies/:id`: `id` is the store's `_id` as text (one that cannot
   * be read as an `_id` makes the store throw, a 500). The record goes only
   * if the caller owns it; otherwise the reply is 404 and nothing changes.
   */
  function Delete(st: MovieStore, userId: string, id: string): (r: (Reply<string>, MovieStore))
    ensures ParseNat(id).None? ==> r == (Err(500, UnexpectedError), st)
    ensures r.0.Ok? <==> ParseNat(id).Some? && exists i :: 0 <= i < |st.records| && st.records[i].id == ParseNat(id).value && st.records[i].userId == userId
    ensures r.0.Ok? ==> r.0.code == 200 && exists k :: && 0 <= k < |st.records|
                                                       && st.records[k].id == ParseNat(id).value
                                                       && st.records[k].userId == userId
                                                       && r.1.records == st.records[..k] + st.records[k + 1..]
    ensures !r.0.Ok? ==> r.1 == st
    ensures ParseNat(id).Some? && !r.0.Ok? ==> r.0 == Err(404, RecordNotFound)
    ensures Invariant(st) ==> Invariant(r.1)
  {
    match ParseNat(id)
    case None => (Err(500, UnexpectedError), st)
    case Some(n) =>
      var (deleted, st') := FindOneAndDelete(st, n, userId);
      if deleted.None? then (Err(404, RecordNotFound), st)
      else (Ok(200, RecordDeleted), st')
  }

  /** Delete never removes a record the caller does not own. */
  lemma DeleteKeepsOthersRecords(st: MovieStore, userId: string, id: string)
    ensures forall m :: m in st.records && m.userId != userId ==> m in Delete(st, userId, id).1.records
  {
    if ParseNat(id).Some? {
      var (deleted, st') := FindOneAndDelete(st, ParseNat(id).value, userId);
      if deleted.Some? {
        var k :| && 0 <= k < |st.records|
                 && st.records[k] == deleted.value
                 && st' == MovieStore(st.records[..k] + st.records[k + 1..], st.nextId);
        RemoveKeepsOthers(st.records, k, userId);
      }
    }
  }

  lemma RemoveKeepsOthers(records: seq<SavedMovie>, k: nat, userId: string)
    requires k < |records| && records[k].userId == userId
    ensures forall m :: m in records && m.userId != userId ==> m in records[..k] + records[k + 1..]
  {
    assert records == records[..k] + [records[k]] + records[k + 1..];
  }
}
